=== FILE: README.md ===
# HexAnnotator core in Dafny

HexAnnotator is a Win32 hex viewer. You select a byte range, attach a labelled
annotation to it with a display format, and the view draws a rounded outline
around the range and the formatted value in the ASCII pane. A side grid shows
thirteen primitive read-outs of the bytes at the cursor. The annotations of a
document can be saved to and loaded from an `.hva` file.

This project models the integer and byte logic of that program as pure Dafny
functions over immutable data:

| module | what it models |
|---|---|
| `Bytes` | bytes, one-byte characters, `int`/`DWORD` ranges, the printable-or-dot rule |
| `LittleEndian` | little-endian two's-complement encoding and decoding of 1 to 8 byte integers |
| `Numerals` | decimal, lowercase-hex and two-digit uppercase-hex renderings, with parsers that invert them |
| `SpanFormat` | `FormatData`: clamping a span to the buffer and rendering it as hex, int, float, double, ascii or unicode |
| `Document` | `Annotation`, the byte-range table entries and `DocumentWindowState` with its defaults |
| `Readout` | the `DataType` enumeration, `GetDataTypeName`, `FormatDataAtOffset` and the grid refresh |
| `InputDialog` | the format-name/combo-index mapping of the annotation dialog and its OK/cancel buffers |
| `Annotations` | the covering-annotation search; create, edit, remove and set-format; the context menu; `tagBytesThatAreAnnotated` |
| `RowProjection` | cutting an annotation into 16-byte row spans, visible-row filtering, label placement, outline boxes, ASCII-pane value slicing |
| `HitTest` | the byte under a mouse point, and the mouse-button handlers' cursor and selection updates |
| `AnnotationFile` | `SaveAnnotationsToFile` and `LoadAnnotationsFromFile` as a serialiser and a parser over byte sequences |

The model represents some things explicitly rather than leaving them to the
platform:

- C++ truncating division is written out where an operand can be negative.
- Widths and wrap-around follow the source's `int`, `int16_t`, `int64_t` and `DWORD` types.
- A value the model does not compute is carried as data (`SpanFormat.Value`): fixed-point printing of IEEE 754 numbers, and calendar conversion of time stamps. Their raw bytes are kept, so the guards in front of them are still proved.
- Uninitialised fields become parameters: the colour of a created annotation, and the palette index of a loaded one.
- The user's side of a dialog is a `Reply`.
- The user's answer to "Load anyway?" is a boolean parameter.

## Model

| member | source | states |
|---|---|---|
| `LittleEndian.DecodeEncodeUnsigned` | HexAnnotator/HexViewerWindow.cpp:1029-1046 | writing n little-endian bytes of a value below 256^n and reading them back gives the value |
| `LittleEndian.EncodeDecodeUnsigned` | HexAnnotator/HexViewerWindow.cpp:1029-1046 | every byte sequence is the little-endian encoding of the number it reads as |
| `LittleEndian.DecodeEncodeInt32` | HexAnnotator/main.cpp:750-751 | an `int` written as four bytes reads back as the same `int`, negatives included |
| `LittleEndian.DecodeEncodeUint32` | HexAnnotator/main.cpp:754 | a `DWORD` colour written as four bytes reads back unchanged |
| `LittleEndian.MinusOneBytes` | HexAnnotator/HexViewerWindow.cpp:1035-1040 | four 0xFF bytes are the 32-bit encoding of -1 |
| `Numerals.DecimalRoundTrip` | HexAnnotator/HexViewerWindow.cpp:1024-1053 | the decimal text of any integer parses back to that integer, so distinct values print differently |
| `Numerals.HexRoundTrip` | HexAnnotator/main.cpp:520-570 | the lowercase hex text of any natural number parses back to it |
| `Numerals.HexPair` | HexAnnotator/HexViewerWindow.cpp:1018-1019 | a byte prints as exactly two uppercase hex digits whose value is the byte |
| `SpanFormat.Span` | HexAnnotator/HexViewerWindow.cpp:1011-1014 | the span read lies inside the buffer from the offset; its length is the requested one when that fits, otherwise the rest of the buffer (a negative sum also counts as too long) |
| `SpanFormat.HexDumpAt` | HexAnnotator/HexViewerWindow.cpp:1016-1021 | characters 3i..3i+2 of the hex dump are byte i's two digits and a space |
| `SpanFormat.HexDumpRoundTrip` | HexAnnotator/HexViewerWindow.cpp:1016-1021 | the hex dump parses back to exactly the bytes dumped |
| `SpanFormat.HexFormatReadsBack` | HexAnnotator/HexViewerWindow.cpp:1011-1021 | "hex" emits three characters per byte of the clamped span and reads back as those bytes of the buffer |
| `SpanFormat.HexFormatExample` | HexAnnotator/HexViewerWindow.cpp:1016-1021 | [0x0A, 0xFF] renders as "0A FF " |
| `SpanFormat.IntFormatReadsBack` | HexAnnotator/HexViewerWindow.cpp:1022-1054 | "int" on 1, 2, 4 or 8 bytes prints the signed little-endian value of that width; on 0 or 3 bytes it prints the unsigned accumulation; exactly the other widths are undefined behaviour |
| `SpanFormat.IntFormatMinusOne` | HexAnnotator/HexViewerWindow.cpp:1035-1040 | four 0xFF bytes render as "-1" |
| `SpanFormat.AsciiFormatPerByte` | HexAnnotator/HexViewerWindow.cpp:1076-1086 | "ascii" gives one character per byte: printable bytes as themselves, others as '.'; a fully printable span comes back verbatim |
| `SpanFormat.UnicodeFormatIsEvenBytes` | HexAnnotator/HexViewerWindow.cpp:1087-1097 | "unicode" gives (n+1)/2 characters, the ascii rendering of the even-indexed bytes |
| `SpanFormat.FloatAndFallbackRules` | HexAnnotator/HexViewerWindow.cpp:1056-1098 | "float"/"double" yield "Insufficient bytes" exactly when fewer than 4/8 bytes remain, otherwise they print exactly the first 4/8 bytes; an unknown format yields "" |
| `SpanFormat.FormatData` | HexAnnotator/HexViewerWindow.cpp:1008-1099 | an unknown format gives ""; only "int" is ever undefined; a foreign rendering gets exactly the first 4 ("float") or 8 ("double") bytes at the offset |
| `Document.FreshStateWellFormed` | HexAnnotator/includes.h:18-25 | the defaults satisfy the window invariant |
| `Annotations.FreshWindowIsInert` | HexAnnotator/includes.h:18-24 | a new window has no cursor and no selection, so it offers no context menu and every menu command leaves it unchanged |
| `Readout.Ordinal` | HexAnnotator/includes.h:32-47 | every member's value lies below the sentinel DT_COUNT = 13 |
| `Readout.FromOrdinal` | HexAnnotator/includes.h:32-47 | the cast from an integer names a member exactly for 0..12, and that member has that value |
| `Readout.OrdinalRoundTrip` | HexAnnotator/includes.h:32-47 | each of the thirteen members has its own value |
| `Readout.DataTypeNamesDistinct` | HexAnnotator/main.cpp:492-510 | "Unknown" exactly outside 0..12, and no two rows share a name |
| `Readout.DataTypeName` | HexAnnotator/main.cpp:492-510 | every value has a non-empty name, "Unknown" exactly outside 0..12 |
| `Readout.ZeroTerminated` | HexAnnotator/main.cpp:590-607 | the DT_STRING text has at most 32 characters, never reads past the data, shows each byte by the printable-or-dot rule, and stops only at the limit, the end or a zero byte |
| `Readout.ZeroTerminatedWide` | HexAnnotator/main.cpp:608-626 | the DT_UNICODE_STRING text has at most 16 characters, each a non-zero 16-bit unit whose both bytes exist, and stops only at the limit, a missing byte or a zero unit |
| `Readout.IntegerHex` | HexAnnotator/main.cpp:520-570 | the hex part is the value when non-negative; for DT_SHORT and DT_INT it is the 32-bit sign extension of a negative value; for DT_BYTE it is the unsigned byte |
| `Readout.IntegerReadoutGuard` | HexAnnotator/main.cpp:520-570 | an integer read-out exists exactly when the type's width of bytes remains, reads them little-endian as "<decimal> (0x<hex>)", and its decimal part parses back |
| `Readout.SignExtendedHexExamples` | HexAnnotator/main.cpp:520-544 | 0xFFFF as DT_SHORT reads "-1 (0xffffffff)", and 0xFF as DT_BYTE reads "-1 (0xff)" |
| `Readout.StringReadoutBounds` | HexAnnotator/main.cpp:590-607 | the string read-out respects its 32-character limit, and reads "Not enough data" exactly when empty at the offset |
| `Readout.WideStringReadoutBounds` | HexAnnotator/main.cpp:608-626 | the wide-string read-out respects its 16-character limit, reads a unit only while both its bytes exist, and reads "Not enough data" exactly when empty at the offset |
| `Readout.ForeignReadoutGuards` | HexAnnotator/main.cpp:572-676 | float/double read-outs receive exactly 4/8 bytes, DT_TIME64_T and DT_OLETIME appear exactly when 8 bytes remain, DT_TIME_T receives the corrected 4-byte window, and "Not enough data" is read when fewer remain |
| `Readout.RawReadout` | HexAnnotator/main.cpp:514-686 | the read-out before the "Not enough data" substitution is never undefined, is always text for the integer types, and a foreign read-out gets bytes of the data from the offset on |
| `Readout.FormatDataAtOffset` | HexAnnotator/main.cpp:687-690 | a read-out is never the empty text (the corrected DT_TIME_T window is used) |
| `Readout.ReadoutGrid` | HexAnnotator/main.cpp:468-487 | nothing for an offset outside the document, otherwise one read-out per type, in enumeration order |
| `Readout.TimeTWindow` | HexAnnotator/main.cpp:627-631 | corrected DT_TIME_T: it reads exactly the four bytes its guard checks for |
| `Readout.TimeTWindowAsWritten` | HexAnnotator/main.cpp:627-631 | DT_TIME_T as written: guarded by four remaining bytes |
| `Readout.TimeTGuardAdmitsOverread` | HexAnnotator/main.cpp:627-631 | on a 4-byte buffer the guard passes, and the 8-byte copy reads past the end |
| `InputDialog.InitialSelection` | HexAnnotator/AnnotationInputDialog.cpp:219-233 | an empty format selects 0; a non-empty format selects an index exactly when it is one of the four offered names, and the index names it |
| `InputDialog.SelectedFormat` | HexAnnotator/AnnotationInputDialog.cpp:266-272 | the result is always an offered name: index 0..3 gives its name, anything else "hex" |
| `InputDialog.FormatIndexRoundTrip` | HexAnnotator/AnnotationInputDialog.cpp:213-233 | name to index to name, and index to name to index, are identities on the four offered entries |
| `InputDialog.Truncated` | HexAnnotator/AnnotationInputDialog.cpp:257-259 | the copied label is a prefix of the edit text that fits the buffer with its terminator, and is the whole text when it fits |
| `InputDialog.ShowDialog` | HexAnnotator/AnnotationInputDialog.cpp:180-184 | a non-OK result clears both buffers; OK yields the selected offered format ("hex" when nothing valid is selected) and the typed label, whole when it fits in 255 characters and cut to 255 otherwise |
| `InputDialog.DialogNeverYieldsDoubleOrUnicode` | HexAnnotator/AnnotationInputDialog.cpp:213-216 | the dialog can never produce "double" or "unicode" |
| `InputDialog.UntouchedDialogKeepsOfferedFormat` | HexAnnotator/AnnotationInputDialog.cpp:207-233 | OK without touching the controls keeps the label, keeps an offered format, and turns any other format into "hex" |
| `Annotations.FindCovering` | HexAnnotator/HexViewerWindow.cpp:427-433 | the result is the lowest index whose range covers the offset, or -1 exactly when none does |
| `Annotations.FindCoveringDependsOnRanges` | HexAnnotator/HexViewerWindow.cpp:427-433 | the search result depends only on which annotations cover the offset |
| `Annotations.CreateAnnotation` | HexAnnotator/HexViewerWindow.cpp:1104-1132 | with no selection, an empty document or an empty label nothing changes; otherwise exactly one annotation is appended. Its ends are min and max of the selection, its label and format are the ones the dialog leaves in its buffers (a non-empty label, an offered format), its colour index is count mod 6, and annotating ends |
| `Annotations.DismissedDialogCreatesNothing` | HexAnnotator/HexViewerWindow.cpp:1116-1118 | a cancelled dialog leaves the window unchanged |
| `Annotations.CreatedColorsCycle` | HexAnnotator/HexViewerWindow.cpp:1125 | a new annotation takes the palette slot after its predecessor's, modulo the palette size |
| `Annotations.EditAnnotation` | HexAnnotator/HexViewerWindow.cpp:1137-1160 | an out-of-range index or an empty label changes nothing; otherwise only that annotation's label and format change, to the ones the dialog leaves in its buffers (a non-empty fitting label, an offered format) |
| `Annotations.UntouchedEditResetsUnofferedFormat` | HexAnnotator/HexViewerWindow.cpp:1144-1156 | confirming the edit dialog untouched keeps an offered format and resets "double"/"unicode" to "hex" |
| `Annotations.ConfirmedChoiceReachesAnnotation` | HexAnnotator/HexViewerWindow.cpp:1104-1160 | a confirmed label that fits and a selected offered format reach the created or edited annotation unchanged |
| `Annotations.RemoveAt` | HexAnnotator/HexViewerWindow.cpp:454 | erasing keeps the other annotations in order and removes exactly one occurrence of the erased one |
| `Annotations.MenuFormat` | HexAnnotator/HexViewerWindow.cpp:479-486 | a command selects a format exactly for 2003..2008, and that format is one the span formatter knows |
| `Annotations.MenuFormatsBijective` | HexAnnotator/HexViewerWindow.cpp:461-486 | the six commands select six different formats, and every known format has a command |
| `Annotations.Rebuild` | HexAnnotator/HexViewerWindow.cpp:527-552 | the table is replaced wholesale by one entry per annotation; nothing else changes |
| `Annotations.DescribedTableHolds` | HexAnnotator/HexViewerWindow.cpp:527-552 | the table built in annotation order has one entry per annotation, each pointing back at the annotation it describes |
| `Annotations.ReorderedTableHolds` | HexAnnotator/HexViewerWindow.cpp:549 | any reordering of such a table, such as the one `std::sort` makes, still has one entry per annotation, each describing the annotation it points at |
| `Annotations.TableEntryMeaning` | HexAnnotator/HexViewerWindow.cpp:532-546 | in a table of any order, the entry pointing at annotation i covers exactly annotation i's offsets, has length end-start+1, and holds the annotation's bytes rendered in its format |
| `Annotations.TableAgreesWithSearch` | HexAnnotator/HexViewerWindow.cpp:527-552 | in a table of any order, some entry contains an offset exactly when the linear search succeeds; every such entry points at a covering annotation, and the lowest index among them is the one the search finds |
| `Annotations.ContextMenu` | HexAnnotator/HexViewerWindow.cpp:949-996 | the annotation menu appears exactly when the cursor is set and covered, for the first covering annotation, with exactly its format checked; otherwise "Create" with a selection, else no menu |
| `Annotations.AtMostOneCheckMark` | HexAnnotator/HexViewerWindow.cpp:972-986 | at most one format entry is checked |
| `Annotations.EditCommand` | HexAnnotator/HexViewerWindow.cpp:424-440 | command 2001 edits the annotation under the cursor, rebuilds the table, and changes nothing else |
| `Annotations.Install` | HexAnnotator/HexViewerWindow.cpp:435-437 | a changed list is installed with its table rebuilt: the invariant holds and only the list and the table change |
| `Annotations.RemoveCommand` | HexAnnotator/HexViewerWindow.cpp:442-459 | command 2002 removes the first annotation under the cursor and rebuilds the table; with none under the cursor nothing changes |
| `Annotations.FormatCommand` | HexAnnotator/HexViewerWindow.cpp:461-492 | a set-format command changes only the format of the annotation under the cursor and rebuilds the table |
| `Annotations.CreateCommand` | HexAnnotator/HexViewerWindow.cpp:494-499 | command 2009 with a selection creates as `CreateAnnotation` does and rebuilds the table; without a selection nothing changes |
| `Annotations.HandleCommand` | HexAnnotator/HexViewerWindow.cpp:417-503 | every menu command keeps the window invariant and touches only the annotation list, the annotating flag and the table; other commands change nothing |
| `Annotations.RemoveDeletesFirstCovering` | HexAnnotator/HexViewerWindow.cpp:442-459 | "Remove" deletes exactly the first covering annotation and keeps the rest in order |
| `Annotations.DismissedDialogKeepsAnnotations` | HexAnnotator/HexViewerWindow.cpp:1153-1159 | a cancelled dialog leaves the list unchanged, for "Edit" and for "Create" |
| `Annotations.SetFormatIsChecked` | HexAnnotator/HexViewerWindow.cpp:477-487 | after choosing a format, the same annotation is under the cursor and the next menu shows that format checked |
| `RowProjection.RowOf` | HexAnnotator/HexViewerWindow.cpp:835-878 | a row span's columns lie in 0..15 and hold exactly the annotation's bytes on that row; the row is Single iff the annotation has one row, and First/Last iff it is the first/last of several |
| `RowProjection.RowsFrom` | HexAnnotator/HexViewerWindow.cpp:851-856 | the loop draws every row of the annotation inside the page, and only those, in ascending order |
| `RowProjection.DrawnRows` | HexAnnotator/HexViewerWindow.cpp:836-856 | the drawn rows are the annotation's rows on the page, each its row span, ascending, and every such row is drawn |
| `RowProjection.DrawnRowsAreVisibleRows` | HexAnnotator/HexViewerWindow.cpp:840-860 | drawn rows are exactly the annotation's rows within [scroll, scroll + bytesPerPage/16], ascending, with 0 <= startCol <= endCol <= 15 |
| `RowProjection.RowKindsClassify` | HexAnnotator/HexViewerWindow.cpp:872-878 | Single iff one row; otherwise Middle exactly strictly between the first and last rows |
| `RowProjection.LabelOnExactlyOneRow` | HexAnnotator/HexViewerWindow.cpp:917-918 | the label is drawn on exactly one row, the first row when visible and else the page's top row, whenever any row is drawn |
| `RowProjection.WidthFrom` | HexAnnotator/HexViewerWindow.cpp:851-860 | the spans from a row on cover the bytes from that row's start (or the annotation's start) to its end |
| `RowProjection.RowsTileAnnotation` | HexAnnotator/HexViewerWindow.cpp:835-860 | the row spans cover end-start+1 bytes in total, and an offset lies in some span iff it lies in [start, end] |
| `RowProjection.TenToTwentyExample` | HexAnnotator/HexViewerWindow.cpp:835-860 | bytes 10..20 are row 0 columns 10-15 and row 1 columns 0-4 |
| `RowProjection.BoxesAreOrdered` | HexAnnotator/HexViewerWindow.cpp:858-870 | both outlines are non-empty, the hex outline ends left of the ASCII pane, and rows on the page lie below the header one band apart |
| `RowProjection.FirstRowText` | HexAnnotator/HexViewerWindow.cpp:740-748 | the first row shows the value's prefix that fits the remaining columns |
| `RowProjection.Consumed` | HexAnnotator/HexViewerWindow.cpp:716-718 | the characters assigned to earlier rows never exceed the value |
| `RowProjection.ContinuationText` | HexAnnotator/HexViewerWindow.cpp:709-737 | a continuation row shows the slice of the value right after the consumed part, of length exactly min(what is left of the value, what the row fits), and nothing exactly when the value is consumed |
| `RowProjection.PaneText` | HexAnnotator/HexViewerWindow.cpp:709-762 | n rows of pane text hold at most 16n-col characters, starting with the first-row text |
| `RowProjection.ContinuationAlignsWithBytes` | HexAnnotator/HexViewerWindow.cpp:716-718 | a value with k characters per byte resumes k characters per earlier byte into the text |
| `RowProjection.ShortValueRestarts` | HexAnnotator/HexViewerWindow.cpp:716-725 | a value shorter than the annotation restarts from its first character on every continuation row |
| `RowProjection.OneCharPerBytePaneIsExact` | HexAnnotator/HexViewerWindow.cpp:709-762 | for one character per byte, the row pieces join without gap or overlap into the value's first 16n-col characters |
| `HitTest.HexColumnFrom` | HexAnnotator/HexViewerWindow.cpp:219-226 | the loop finds the lowest column from its start whose 24-pixel cell holds x, or -1 when none does |
| `HitTest.HexColumnMatchesClosedForm` | HexAnnotator/HexViewerWindow.cpp:219-226 | the scanning loop equals a closed-form column computation on every x |
| `HitTest.OffsetAt` | HexAnnotator/HexViewerWindow.cpp:211-238 | a found offset always lies on the row under the mouse |
| `HitTest.PointOnRow` | HexAnnotator/HexViewerWindow.cpp:209-212 | a point in a page row's band maps to that row, the first row's top pixel line being header |
| `HitTest.LeftClickFindsHexByte` | HexAnnotator/HexViewerWindow.cpp:215-231 | the left button finds a byte from its text's left edge to 18 pixels right of it |
| `HitTest.RightClickFindsHexByte` | HexAnnotator/HexViewerWindow.cpp:363-373 | the right button finds a byte 4 to 19 pixels right of its text's edge (0 to 19 for column 0) |
| `HitTest.RightClickOverlapTakesPreviousByte` | HexAnnotator/HexViewerWindow.cpp:365-371 | the first 4 pixels of a byte's text belong, for the right button, to the previous byte |
| `HitTest.AsciiClickFindsByte` | HexAnnotator/HexViewerWindow.cpp:232-238 | any point of an ASCII character cell finds its byte |
| `HitTest.LeftClickInsideOutline` | HexAnnotator/HexViewerWindow.cpp:215-238 | a left click inside a row span's outline (past the hex outline's two rim pixels) lands on a byte of the span |
| `HitTest.OutlineRimSelectsPreviousByte` | HexAnnotator/HexViewerWindow.cpp:219-226 | the hex outline's leftmost pixel selects the byte before the span |
| `HitTest.LeftButtonDown` | HexAnnotator/HexViewerWindow.cpp:201-253 | a click on a byte sets cursor and both selection ends there and starts selecting; anything else changes nothing |
| `HitTest.MouseMove` | HexAnnotator/HexViewerWindow.cpp:255-305 | while selecting, the cursor and the moving end follow the mouse over bytes; nothing else changes |
| `HitTest.RightButtonDown` | HexAnnotator/HexViewerWindow.cpp:349-391 | a right click on a byte moves only the cursor |
| `HitTest.LeftButtonUp` | HexAnnotator/HexViewerWindow.cpp:308-313 | releasing the button ends the drag, keeps the invariant, and leaves cursor, selection and annotations alone |
| `HitTest.ReleaseEndsDrag` | HexAnnotator/HexViewerWindow.cpp:308-313 | after the button is released the mouse no longer moves the selection |
| `HitTest.MouseKeepsWellFormed` | HexAnnotator/HexViewerWindow.cpp:240-244 | the mouse handlers keep cursor and selection on bytes of the document |
| `HitTest.DragKeepsAnchor` | HexAnnotator/HexViewerWindow.cpp:294-297 | after a click and a drag, the anchored end stays where the click landed and both ends are bytes of the document |
| `AnnotationFile.Header` | HexAnnotator/main.cpp:727-740 | the header is 28 bytes: "HVA\0", version 1 and the annotation count as `int`s, then 16 zero reserved bytes |
| `AnnotationFile.EncodeRecord` | HexAnnotator/main.cpp:747-765 | a record takes 20 bytes plus its label and format |
| `AnnotationFile.Serialize` | HexAnnotator/main.cpp:696-765 | an empty list writes nothing; otherwise the file starts with the signature and holds header and name |
| `AnnotationFile.ReadInt32Encoded` | HexAnnotator/main.cpp:851-852 | reading an `int` field returns the value written and the bytes after it |
| `AnnotationFile.ReadUint32Encoded` | HexAnnotator/main.cpp:864 | reading the colour field returns the colour written |
| `AnnotationFile.ReadStringEncoded` | HexAnnotator/main.cpp:825-830 | reading a length-prefixed string returns the string written and the bytes after it |
| `AnnotationFile.NegativeLengthRejected` | HexAnnotator/main.cpp:866-880 | a negative label or format length ends the read, as the `std::length_error` from the buffer or string constructor ends the program's load |
| `AnnotationFile.TruncatedFinalStringRejected` | HexAnnotator/main.cpp:874-880 | a record whose format string is cut short ends the read, where the program would pad the string with zero characters and keep the record |
| `AnnotationFile.ReadRecordEncoded` | HexAnnotator/main.cpp:849-880 | reading a record returns the record written |
| `AnnotationFile.ParseRecords` | HexAnnotator/main.cpp:847-884 | the corrected loop keeps at most the header's count of records, every one inside the document |
| `AnnotationFile.ParseEncodedRecords` | HexAnnotator/main.cpp:847-884 | parsing written records keeps exactly the in-bounds ones, in order |
| `AnnotationFile.ReadPreamble` | HexAnnotator/main.cpp:807-841 | a wrong signature stops with BadSignature; continuing implies a full header with the signature |
| `AnnotationFile.Parse` | HexAnnotator/main.cpp:807-887 | a wrong signature rejects the file; a loaded file has at most the header's count of records, all inside the document |
| `AnnotationFile.SaveLoadRoundTrip` | HexAnnotator/main.cpp:741-884 | loading saved bytes into the same document gives back, in order and without warnings, exactly the saved annotations that lie inside the document |
| `AnnotationFile.SaveLoadKeepsInBoundsAnnotations` | HexAnnotator/main.cpp:741-884 | when all saved annotations lie inside the document, all of them come back unchanged |
| `AnnotationFile.VersionOnlyWarns` | HexAnnotator/main.cpp:817-822 | a newer version field only sets the warning; the records loaded are the same |
| `AnnotationFile.NameMismatchNeedsConsent` | HexAnnotator/main.cpp:833-841 | without the user's consent no mismatching file loads; consent changes nothing when the names match |
| `AnnotationFile.ParseRecordsAsWritten` | HexAnnotator/main.cpp:847-884 | the loop as written also keeps at most count records, all inside the document |
| `AnnotationFile.ParseAsWritten` | HexAnnotator/main.cpp:807-887 | the load as written keeps only records inside the document |
| `AnnotationFile.SkippedRecordMisalignsAsWritten` | HexAnnotator/main.cpp:855-861 | as written, after an out-of-bounds record the loop resumes 8 bytes in, at that record's colour field |
| `AnnotationFile.SkippedRecordExampleAsWritten` | HexAnnotator/main.cpp:849-884 | as written, a skipped record followed by a valid one loads a spurious empty record and loses the valid one |
| `AnnotationFile.SkippedRecordExampleCorrected` | HexAnnotator/main.cpp:849-884 | corrected, the same file loads exactly the valid record |
| `AnnotationFile.Installed` | HexAnnotator/main.cpp:883-887 | the installed annotations carry exactly the parsed records' fields |
| `AnnotationFile.Load` | HexAnnotator/main.cpp:886-892 | corrected load: a failed parse leaves the window unchanged; a successful one replaces the list by the parsed records, rebuilds the table and keeps the invariant |
| `AnnotationFile.LoadAsWritten` | HexAnnotator/main.cpp:886-892 | load as written: replaces the list and keeps the invariant, but leaves the table as it was |
| `AnnotationFile.LoadAsWrittenLeavesTableStale` | HexAnnotator/main.cpp:886-892 | as written, when the count changes the table no longer describes the annotations |
| `AnnotationFile.WindowSaveLoadRoundTrip` | HexAnnotator/main.cpp:696-892 | saving a window and loading the file back restores every annotation's offsets, colour, label and format, with a valid table |

## Left out

- Win32 plumbing is not modelled: window procedures, painting calls, fonts and pens, scroll bars, the MDI frame, the dock and grid controls, the dialog template, message boxes and file pickers. Only their arithmetic and state updates are modelled.
- File streams are not modelled: the codec works on byte sequences. The program does not enable stream exceptions, so on truncated input a failed read leaves a later length or offset uninitialised and the behaviour is not defined, except when the cut falls inside the final string read (the last record's format, or the name when the count is 0 or less): there `istream::read` stops at the end of the file, the rest of the zero-filled buffer pads the string, and the program installs the list. The parser returns `Malformed` for every truncated input, the padded case included. A negative length field is defined: `std::vector(len + 1)` (below -1) or `std::string(buf, len)` (at -1) throws `std::length_error`, the handler returns false before the list is assigned, and the window is unchanged. The parser's `Malformed` and `Load` leaving the window unchanged model exactly that.
- `AnnotationFile.LoadAsWritten`: it inherits the parser's `Malformed` stand-in, so on truncated input it leaves the window unchanged. The program's behaviour there is not defined, except when the cut falls inside the final string read: the program then installs the list with that string padded by zero characters (a one-record file whose format length is 3, followed by only "he", loads with format "he\0"), which this member does not promise.
- `AnnotationFile.Load`: a file cut inside its final string read leaves the window unchanged, where the program installs the list with the string padded by zero characters (`AnnotationFile.TruncatedFinalStringRejected`).
- Fixed-point printing of `float`/`double` is not modelled, and neither are the calendar conversions (`gmtime_s`, `_gmtime64_s`, `VariantTimeToSystemTime`). They are foreign library calls over IEEE 754 values and time stamps. The model keeps the raw bytes and proves only the guards in front of them.
- `SpanFormat.IntFormatReadsBack`: an "int" span of 5, 6, 7 or 9 or more bytes shifts by 32 or more bits, which C++ leaves undefined. These widths are marked `Undefined` rather than given a value.
- `Annotations.Rebuild`: the table is modelled in annotation order, before `std::sort`. The `ByteRange` ordering is not defined in the files at hand. The table's meaning and its agreement with the linear search are therefore stated for a table in any order (`Annotations.TableHolds`), which `Annotations.ReorderedTableHolds` shows every reordering keeps.
- The point query `annotationMap.at` and `positionInRow` are not part of this model, because their definitions are not in the files at hand. The continuation slice is therefore modelled only at the row's first column, where the program draws it.
- The `annotationColors` palette is not in the files at hand. Its size is taken as 6.
- The `colorIndex` field is not declared in the shown `Annotation` struct and is left uninitialised by the loader. It is a parameter of `AnnotationFile.Load`.
- The colour of a created annotation is never set by `CreateAnnotation`. It is a parameter.
- Labels of 256 or more characters and formats of 32 or more characters make `strcpy_s` in `EditAnnotation` fail at run time. The model does not represent this; the dialog's reply is taken as given.
- A NUL character inside a typed label would cut it short through `strlen`. Texts are modelled as character sequences without that cut.
- The formatted value computed at HexAnnotator/HexViewerWindow.cpp:924-936 is never drawn, because its drawing call is commented out, so it is not modelled.
- `Readout.FormatDataAtOffset`: its DT_TIME_T arm uses the corrected 4-byte window (`Readout.TimeTWindow`), not the program's 8-byte copy behind a 4-byte guard. The as-written read is modelled only by `Readout.TimeTWindowAsWritten` (see "## Findings").
- `Readout.ReadoutGrid`: its DT_TIME_T row is the corrected 4-byte read-out, for the same reason.
- `Readout.ForeignReadoutGuards`: its DT_TIME_T clause states the corrected 4-byte read, not the 8 bytes `sizeof(time_t)` copies as written.
- The grid and status-bar updates inside the mouse handlers are not modelled. `UpdateGridView`'s cache of the last offset is not modelled either. The grid contents are modelled by `Readout.ReadoutGrid`.
- `Document.FileBytes`: documents are limited to `INT32_MAX` bytes, because the program keeps offsets in `int`.
- `AnnotationFile.Serialize`: it requires lengths and the count to fit an `int`. The wrap-around of `static_cast<int>` on larger values is not modelled.
- The byte-range table operations require every annotation to lie inside the document with start <= end. This is the window invariant that every creating, editing and loading path maintains.

## Findings

| source | as written | input that shows it | evidently intended | confidence | as-written member | corrected member |
|---|---|---|---|---|---|---|
| HexAnnotator/main.cpp:855-861 | an out-of-bounds record is skipped with `continue` right after its two offsets, so its colour, label and format are read as the next record | records (5,5,colour 0,"","") then (0,0,colour 9,"x","hex") loaded into a 1-byte document: the valid record is lost and a record (0,0,0,"","") is loaded instead | the whole skipped record is consumed before the next one is read | high, not executed | `AnnotationFile.SkippedRecordExampleAsWritten` | `AnnotationFile.SkippedRecordExampleCorrected` |
| HexAnnotator/main.cpp:627-631 | DT_TIME_T checks for 4 remaining bytes but copies `sizeof(time_t)`, which is 8 under the platform default | a 4-byte document with the cursor at offset 0: the copy reads bytes 4 to 7, past the end | the 32-bit `time_t` row reads exactly the 4 bytes it checks for (DT_TIME64_T covers 8) | medium, not executed | `Readout.TimeTGuardAdmitsOverread` | `Readout.TimeTWindow` |
| HexAnnotator/main.cpp:886-892 | loading replaces the annotation list without calling `tagBytesThatAreAnnotated`, unlike every other path that changes the list | loading a file with one annotation into a window with none: the table stays empty, so the pane draws no value for it | the byte-range table is rebuilt after loading | high, not executed | `AnnotationFile.LoadAsWrittenLeavesTableStale` | `AnnotationFile.Load` |

=== FILE: annotation_file.dfy ===
/** The ".hva" annotation file: a 28-byte header ("HVA\0", version, count,
    16 reserved bytes), the length-prefixed name of the annotated document,
    then per annotation its start and end offsets, colour, and length-prefixed
    label and format. Every integer is a little-endian 32-bit field. The
    saver is a serialiser over byte sequences and the loader a parser of
    them; the parser fails on input the program's streams would read past
    the end of, or on negative lengths. */
module AnnotationFile {
  import opened Bytes
  import opened LittleEndian
  import opened Document
  import opened Annotations

  /** The signature "HVA" followed by a zero byte. */
  const SIGNATURE: seq<byte> := [0x48, 0x56, 0x41, 0x00]
  const FILE_VERSION: int32 := 1
  const HEADER_SIZE: nat := 28
  const RESERVED_SIZE: nat := 16

  /** The fields of an annotation the file stores. */
  datatype Record = Record(startOffset: int32, endOffset: int32, color: uint32, labelText: Text, format: Text)

  function RecordOf(a: Annotation): Record {
    Record(a.startOffset, a.endOffset, a.color, a.labelText, a.format)
  }

  function Records(annotations: seq<Annotation>): (r: seq<Record>)
    ensures |r| == |annotations|
    ensures forall i :: 0 <= i < |r| ==> r[i] == RecordOf(annotations[i])
  {
    seq(|annotations|, i requires 0 <= i < |annotations| => RecordOf(annotations[i]))
  }

  /** The loader keeps a record only when 0 <= start <= end < docLen. */
  predicate InBounds(startOffset: int, endOffset: int, docLen: nat) {
    !(startOffset < 0 || endOffset < 0 || startOffset >= docLen || endOffset >= docLen || startOffset > endOffset)
  }

  // ---------------------------------------------------------------------
  // Writing

  /** A length the program writes through `static_cast<int>`: one that fits. */
  predicate FitsLength(t: Text) {
    |t| <= INT32_MAX
  }

  predicate RecordsEncodable(rs: seq<Record>) {
    forall i :: 0 <= i < |rs| ==> FitsLength(rs[i].labelText) && FitsLength(rs[i].format)
  }

  /** What can be saved without a length or count overflowing `int`. */
  predicate Encodable(name: Text, annotations: seq<Annotation>) {
    FitsLength(name) && |annotations| <= INT32_MAX && RecordsEncodable(Records(annotations))
  }

  /** An `int` length followed by the string's bytes. */
  function EncodeString(t: Text): (r: seq<byte>)
    requires FitsLength(t)
    ensures |r| == 4 + |t|
  {
    EncodeInt32(|t|) + TextBytes(t)
  }

  /** A record: two offsets, the colour, then the label and the format,
      each string behind its 4-byte length. */
  function EncodeRecord(r: Record): (s: seq<byte>)
    requires FitsLength(r.labelText) && FitsLength(r.format)
    ensures |s| == 20 + |r.labelText| + |r.format|
  {
    EncodeInt32(r.startOffset) + (EncodeInt32(r.endOffset) + (EncodeUint32(r.color)
      + (EncodeString(r.labelText) + EncodeString(r.format))))
  }

  function EncodeRecords(rs: seq<Record>): seq<byte>
    requires RecordsEncodable(rs)
  {
    if |rs| == 0 then [] else EncodeRecord(rs[0]) + EncodeRecords(rs[1..])
  }

  /** The header `SaveAnnotationsToFile` writes for `count` annotations. */
  function Header(count: int32): (r: seq<byte>)
    ensures |r| == HEADER_SIZE
    ensures r[..4] == SIGNATURE
    ensures DecodeInt32(r[4..8]) == FILE_VERSION && DecodeInt32(r[8..12]) == count
    ensures forall i :: 12 <= i < HEADER_SIZE ==> r[i] == 0
  {
    DecodeEncodeInt32(FILE_VERSION);
    DecodeEncodeInt32(count);
    var r := SIGNATURE + EncodeInt32(FILE_VERSION) + EncodeInt32(count) + seq(RESERVED_SIZE, _ => 0);
    assert r[4..8] == EncodeInt32(FILE_VERSION) && r[8..12] == EncodeInt32(count);
    r
  }

  /** `SaveAnnotationsToFile`: nothing when there are no annotations,
      otherwise the file's bytes. */
  function Serialize(name: Text, annotations: seq<Annotation>): (r: Option<seq<byte>>)
    requires Encodable(name, annotations)
    ensures r.None? <==> |annotations| == 0
    ensures r.Some? ==> |r.value| >= HEADER_SIZE + 4 + |name| && r.value[..4] == SIGNATURE
  {
    if |annotations| == 0 then None
    else Some(Header(|annotations|) + EncodeString(name) + EncodeRecords(Records(annotations)))
  }

  // ---------------------------------------------------------------------
  // Reading

  /** Reads an `int`; None at the end of the data. */
  function ReadInt32(s: seq<byte>): (r: Option<(int32, seq<byte>)>)
    ensures r.Some? <==> |s| >= 4
    ensures r.Some? ==> r.value.1 == s[4..]
  {
    if |s| < 4 then None else Some((DecodeInt32(s[..4]), s[4..]))
  }

  /** Reads a `DWORD`; None at the end of the data. */
  function ReadUint32(s: seq<byte>): (r: Option<(uint32, seq<byte>)>)
    ensures r.Some? <==> |s| >= 4
    ensures r.Some? ==> r.value.1 == s[4..]
  {
    if |s| < 4 then None
    else
      assert Pow256(4) == TWO_POW_32;
      Some((Unsigned(s[..4]), s[4..]))
  }

  /** Reads an `int` length and that many bytes as a string; None for a
      negative length or too few bytes. */
  function ReadString(s: seq<byte>): (r: Option<(Text, seq<byte>)>)
    ensures r.Some? ==> |r.value.1| <= |s| - 4 - |r.value.0|
  {
    match ReadInt32(s)
    case None => None
    case Some((length, rest)) =>
      if length < 0 || |rest| < length then None
      else Some((BytesText(rest[..length]), rest[length..]))
  }

  lemma ReadInt32Encoded(x: int32, rest: seq<byte>)
    ensures ReadInt32(EncodeInt32(x) + rest) == Some((x, rest))
  {
    var s := EncodeInt32(x) + rest;
    assert s[..4] == EncodeInt32(x);
    assert s[4..] == rest;
    DecodeEncodeInt32(x);
  }

  lemma ReadUint32Encoded(x: uint32, rest: seq<byte>)
    ensures ReadUint32(EncodeUint32(x) + rest) == Some((x, rest))
  {
    var s := EncodeUint32(x) + rest;
    assert s[..4] == EncodeUint32(x);
    assert s[4..] == rest;
    DecodeEncodeUint32(x);
  }

  lemma ReadStringEncoded(t: Text, rest: seq<byte>)
    requires FitsLength(t)
    ensures ReadString(EncodeString(t) + rest) == Some((t, rest))
  {
    var s := EncodeString(t) + rest;
    assert s == EncodeInt32(|t|) + (TextBytes(t) + rest);
    ReadInt32Encoded(|t|, TextBytes(t) + rest);
    assert (TextBytes(t) + rest)[..|t|] == TextBytes(t);
    assert (TextBytes(t) + rest)[|t|..] == rest;
    TextBytesRoundTrip(t);
  }

  /** A negative length field makes the program's buffer or string
      constructor throw, and the handler abandons the load; the reader
      stops in the same place. */
  lemma NegativeLengthRejected(length: int32, rest: seq<byte>)
    requires length < 0
    ensures ReadString(EncodeInt32(length) + rest) == None
  {
    ReadInt32Encoded(length, rest);
  }

  /** A file cut inside its last string: the record announces a 3-byte
      format but only "he" follows. The program pads the string with a zero
      character and loads the record; the reader stops instead. */
  lemma TruncatedFinalStringRejected()
    ensures var s := EncodeInt32(0) + EncodeInt32(0) + EncodeUint32(0) + EncodeInt32(0) + EncodeInt32(3) + [0x68, 0x65];
      ParseRecords(s, 1, 1) == None
  {
    var atFormat := EncodeInt32(3) + [0x68, 0x65];
    ReadInt32Encoded(3, [0x68, 0x65]);
    assert ReadString(atFormat) == None;
    var atLabel := EncodeInt32(0) + atFormat;
    ReadInt32Encoded(0, atFormat);
    assert ReadString(atLabel) == Some(([], atFormat));
    var atColor := EncodeUint32(0) + atLabel;
    ReadUint32Encoded(0, atLabel);
    assert ReadRecordTail(0, 0, atColor) == None;
    var atEnd := EncodeInt32(0) + atColor;
    ReadInt32Encoded(0, atColor);
    var s := EncodeInt32(0) + atEnd;
    ReadInt32Encoded(0, atEnd);
    assert ReadRecord(s) == None;
    assert s == EncodeInt32(0) + EncodeInt32(0) + EncodeUint32(0) + EncodeInt32(0) + EncodeInt32(3) + [0x68, 0x65];
  }

  /** Reads the five fields of one record. */
  function ReadRecord(s: seq<byte>): (r: Option<(Record, seq<byte>)>)
    ensures r.Some? ==> |r.value.1| < |s|
  {
    match ReadInt32(s)
    case None => None
    case Some((startOffset, s1)) =>
      match ReadInt32(s1)
      case None => None
      case Some((endOffset, s2)) => ReadRecordTail(startOffset, endOffset, s2)
  }

  /** Reads colour, label and format after a record's two offsets. */
  function ReadRecordTail(startOffset: int32, endOffset: int32, s: seq<byte>): (r: Option<(Record, seq<byte>)>)
    ensures r.Some? ==> |r.value.1| < |s|
  {
    match ReadUint32(s)
    case None => None
    case Some((color, s3)) =>
      match ReadString(s3)
      case None => None
      case Some((labelText, s4)) =>
        match ReadString(s4)
        case None => None
        case Some((format, s5)) => Some((Record(startOffset, endOffset, color, labelText, format), s5))
  }

  lemma ReadRecordEncoded(rec: Record, rest: seq<byte>)
    requires FitsLength(rec.labelText) && FitsLength(rec.format)
    ensures ReadRecord(EncodeRecord(rec) + rest) == Some((rec, rest))
  {
    var tail := EncodeString(rec.labelText) + (EncodeString(rec.format) + rest);
    var afterEnd := EncodeUint32(rec.color) + tail;
    var afterStart := EncodeInt32(rec.endOffset) + afterEnd;
    assert EncodeRecord(rec) + rest == EncodeInt32(rec.startOffset) + afterStart;
    ReadInt32Encoded(rec.startOffset, afterStart);
    ReadInt32Encoded(rec.endOffset, afterEnd);
    ReadUint32Encoded(rec.color, tail);
    ReadStringEncoded(rec.labelText, EncodeString(rec.format) + rest);
    ReadStringEncoded(rec.format, rest);
  }

  /** The loop over the header's count, skipping each out-of-bounds record
      as a whole. Keeps at most `count` records, all inside the document. */
  function ParseRecords(s: seq<byte>, count: int, docLen: nat): (r: Option<(seq<Record>, seq<byte>)>)
    ensures r.Some? ==> |r.value.0| <= Max(count, 0)
    ensures r.Some? ==> forall i :: 0 <= i < |r.value.0| ==>
      InBounds(r.value.0[i].startOffset, r.value.0[i].endOffset, docLen)
    decreases Max(count, 0)
  {
    if count <= 0 then Some(([], s))
    else
      var head := ReadRecord(s);
      if head.None? then None
      else
        var others := ParseRecords(head.value.1, count - 1, docLen);
        if others.None? then None
        else
          var rec := head.value.0;
          var kept := if InBounds(rec.startOffset, rec.endOffset, docLen) then [rec] + others.value.0 else others.value.0;
          Some((kept, others.value.1))
  }

  /** The records that fall inside a document of `docLen` bytes, in order. */
  function Filter(rs: seq<Record>, docLen: nat): (r: seq<Record>)
    ensures |r| <= |rs|
  {
    if |rs| == 0 then []
    else if InBounds(rs[0].startOffset, rs[0].endOffset, docLen) then [rs[0]] + Filter(rs[1..], docLen)
    else Filter(rs[1..], docLen)
  }

  lemma {:induction false} FilterKeepsInBounds(rs: seq<Record>, docLen: nat)
    requires forall i :: 0 <= i < |rs| ==> InBounds(rs[i].startOffset, rs[i].endOffset, docLen)
    ensures Filter(rs, docLen) == rs
  {
    if |rs| > 0 {
      FilterKeepsInBounds(rs[1..], docLen);
    }
  }

  lemma {:induction false} ParseEncodedRecords(rs: seq<Record>, rest: seq<byte>, docLen: nat)
    requires RecordsEncodable(rs)
    ensures ParseRecords(EncodeRecords(rs) + rest, |rs|, docLen) == Some((Filter(rs, docLen), rest))
  {
    if |rs| > 0 {
      var tail := EncodeRecords(rs[1..]) + rest;
      assert EncodeRecords(rs) + rest == EncodeRecord(rs[0]) + tail;
      ReadRecordEncoded(rs[0], tail);
      ParseEncodedRecords(rs[1..], rest, docLen);
      assert ParseRecords(tail, |rs| - 1, docLen) == Some((Filter(rs[1..], docLen), rest));
    } else {
      assert EncodeRecords(rs) + rest == rest;
    }
  }

  /** What loading a file ends in. `Loaded` carries the kept records and
      whether a newer version or another document's name was reported on
      the way; `Declined` is a name mismatch the user chose not to accept;
      `Malformed` is input too short for what the header and lengths
      announce, or a negative length. */
  datatype LoadResult =
    | Loaded(records: seq<Record>, newerVersion: bool, nameMismatch: bool)
    | BadSignature
    | Declined
    | Malformed

  /** The part of the file before the records: either a decision already
      taken, or the facts the record loop starts from. */
  datatype Preamble =
    | Continue(newerVersion: bool, count: int32, nameMismatch: bool, body: seq<byte>)
    | Stop(outcome: LoadResult)

  /** Header, signature check, version warning and document name check of
      `LoadAnnotationsFromFile`. `confirmMismatch` is the user's answer to
      "Load anyway?" when the stored name differs from `docName`. */
  function ReadPreamble(bytes: seq<byte>, docName: Text, confirmMismatch: bool): (r: Preamble)
    ensures |bytes| >= HEADER_SIZE && bytes[..4] != SIGNATURE ==> r == Stop(BadSignature)
    ensures r.Stop? ==> !r.outcome.Loaded?
    ensures r.Continue? ==> |bytes| >= HEADER_SIZE && bytes[..4] == SIGNATURE
  {
    if |bytes| < HEADER_SIZE then Stop(Malformed)
    else if bytes[..4] != SIGNATURE then Stop(BadSignature)
    else
      var version := DecodeInt32(bytes[4..8]);
      var count := DecodeInt32(bytes[8..12]);
      match ReadString(bytes[HEADER_SIZE..])
      case None => Stop(Malformed)
      case Some((storedName, body)) =>
        if storedName != docName && !confirmMismatch then Stop(Declined)
        else Continue(version > FILE_VERSION, count, storedName != docName, body)
  }

  /** `LoadAnnotationsFromFile` as a parser, with a skipped record consumed
      as a whole. */
  function Parse(bytes: seq<byte>, docLen: nat, docName: Text, confirmMismatch: bool): (r: LoadResult)
    ensures |bytes| >= HEADER_SIZE && bytes[..4] != SIGNATURE ==> r == BadSignature
    ensures r.Loaded? ==> |bytes| >= HEADER_SIZE && |r.records| <= Max(DecodeInt32(bytes[8..12]), 0)
    ensures r.Loaded? ==> forall i :: 0 <= i < |r.records| ==>
      InBounds(r.records[i].startOffset, r.records[i].endOffset, docLen)
  {
    match ReadPreamble(bytes, docName, confirmMismatch)
    case Stop(outcome) => outcome
    case Continue(newerVersion, count, nameMismatch, body) =>
      match ParseRecords(body, count, docLen)
      case None => Malformed
      case Some((records, _)) => Loaded(records, newerVersion, nameMismatch)
  }

  /** The header's fields read back from the front of a saved file. */
  lemma HeaderReadsBack(count: int32, rest: seq<byte>)
    ensures var bytes := Header(count) + rest;
      && |bytes| >= HEADER_SIZE && bytes[..4] == SIGNATURE
      && DecodeInt32(bytes[4..8]) == FILE_VERSION && DecodeInt32(bytes[8..12]) == count
      && bytes[HEADER_SIZE..] == rest
  {
    var h := Header(count);
    assert (h + rest)[..4] == h[..4];
    assert (h + rest)[4..8] == h[4..8];
    assert (h + rest)[8..12] == h[8..12];
  }

  /** Saving then loading into the same document gives back, in order,
      exactly the saved annotations that lie inside the document, with no
      warning. */
  lemma SaveLoadRoundTrip(name: Text, annotations: seq<Annotation>, docLen: nat, confirmMismatch: bool)
    requires Encodable(name, annotations) && |annotations| > 0
    ensures Parse(Serialize(name, annotations).value, docLen, name, confirmMismatch)
      == Loaded(Filter(Records(annotations), docLen), false, false)
  {
    var rs := Records(annotations);
    var bytes := Serialize(name, annotations).value;
    var afterHeader := EncodeString(name) + EncodeRecords(rs);
    assert bytes == Header(|annotations|) + afterHeader;
    HeaderReadsBack(|annotations|, afterHeader);
    ReadStringEncoded(name, EncodeRecords(rs));
    ParseEncodedRecords(rs, [], docLen);
    assert EncodeRecords(rs) + [] == EncodeRecords(rs);
  }

  /** When every saved annotation lies inside the document, all of them
      come back unchanged. */
  lemma SaveLoadKeepsInBoundsAnnotations(name: Text, annotations: seq<Annotation>, docLen: nat)
    requires Encodable(name, annotations) && |annotations| > 0
    requires AnnotationsInBounds(annotations, docLen)
    ensures Parse(Serialize(name, annotations).value, docLen, name, false) == Loaded(Records(annotations), false, false)
  {
    SaveLoadRoundTrip(name, annotations, docLen, false);
    FilterKeepsInBounds(Records(annotations), docLen);
  }

  /** A version above 1 only adds a warning: the same file with any other
      version field loads the same records. */
  lemma VersionOnlyWarns(bytes: seq<byte>, version: int32, docLen: nat, docName: Text, confirmMismatch: bool)
    requires |bytes| >= HEADER_SIZE
    ensures var other := bytes[..4] + EncodeInt32(version) + bytes[8..];
      var r1 := Parse(bytes, docLen, docName, confirmMismatch);
      var r2 := Parse(other, docLen, docName, confirmMismatch);
      && (r1.Loaded? <==> r2.Loaded?)
      && (r1.Loaded? ==> r1.records == r2.records && r2.newerVersion == (version > FILE_VERSION))
  {
    var other := bytes[..4] + EncodeInt32(version) + bytes[8..];
    assert other[..4] == bytes[..4];
    assert other[4..8] == EncodeInt32(version);
    assert other[8..12] == bytes[8..12];
    assert other[HEADER_SIZE..] == bytes[HEADER_SIZE..];
    DecodeEncodeInt32(version);
  }

  /** Another document's name is loaded only when the user accepts it, and
      then with the mismatch reported. */
  lemma NameMismatchNeedsConsent(bytes: seq<byte>, docLen: nat, docName: Text)
    ensures Parse(bytes, docLen, docName, false).Loaded? ==> !Parse(bytes, docLen, docName, false).nameMismatch
    ensures Parse(bytes, docLen, docName, false).Loaded? ==> Parse(bytes, docLen, docName, true) == Parse(bytes, docLen, docName, false)
  {
  }

  // ---------------------------------------------------------------------
  // The record loop as the program writes it

  /** The record loop of `LoadAnnotationsFromFile` as written: the bounds
      check follows the two offsets, and its `continue` skips only those 8
      bytes, so the colour, label and format of a skipped record are read as
      the start of the next one. */
  function ParseRecordsAsWritten(s: seq<byte>, count: int, docLen: nat): (r: Option<(seq<Record>, seq<byte>)>)
    ensures r.Some? ==> |r.value.0| <= Max(count, 0)
    ensures r.Some? ==> forall i :: 0 <= i < |r.value.0| ==>
      InBounds(r.value.0[i].startOffset, r.value.0[i].endOffset, docLen)
    decreases Max(count, 0)
  {
    if count <= 0 then Some(([], s))
    else if |s| < 8 then None
    else
      var startOffset := DecodeInt32(s[..4]);
      var endOffset := DecodeInt32(s[4..8]);
      if !InBounds(startOffset, endOffset, docLen) then ParseRecordsAsWritten(s[8..], count - 1, docLen)
      else
        match ReadRecordTail(startOffset, endOffset, s[8..])
        case None => None
        case Some((rec, rest)) =>
          match ParseRecordsAsWritten(rest, count - 1, docLen)
          case None => None
          case Some((rs, tail)) => Some(([rec] + rs, tail))
  }

  function ParseAsWritten(bytes: seq<byte>, docLen: nat, docName: Text, confirmMismatch: bool): (r: LoadResult)
    ensures r.Loaded? ==> forall i :: 0 <= i < |r.records| ==>
      InBounds(r.records[i].startOffset, r.records[i].endOffset, docLen)
  {
    match ReadPreamble(bytes, docName, confirmMismatch)
    case Stop(outcome) => outcome
    case Continue(newerVersion, count, nameMismatch, body) =>
      match ParseRecordsAsWritten(body, count, docLen)
      case None => Malformed
      case Some((records, _)) => Loaded(records, newerVersion, nameMismatch)
  }

  /** After an out-of-bounds record the loop as written resumes 8 bytes in,
      at that record's colour field. */
  lemma SkippedRecordMisalignsAsWritten(rec: Record, rest: seq<byte>, count: int, docLen: nat)
    requires FitsLength(rec.labelText) && FitsLength(rec.format)
    requires count >= 1 && !InBounds(rec.startOffset, rec.endOffset, docLen)
    ensures ParseRecordsAsWritten(EncodeRecord(rec) + rest, count, docLen)
      == ParseRecordsAsWritten(EncodeRecord(rec)[8..] + rest, count - 1, docLen)
  {
    var s := EncodeRecord(rec) + rest;
    assert s[..4] == EncodeInt32(rec.startOffset);
    assert s[4..8] == EncodeInt32(rec.endOffset);
    assert s[8..] == EncodeRecord(rec)[8..] + rest;
    DecodeEncodeInt32(rec.startOffset);
    DecodeEncodeInt32(rec.endOffset);
  }

  /** Four zero bytes: the encoding of 0 as either integer type, and of
      the empty string. */
  lemma ZeroEncodings()
    ensures EncodeUint32(0) == EncodeInt32(0)
    ensures EncodeString("") == EncodeInt32(0)
  {
    assert TextBytes("") == [];
  }

  /** Three zero fields read after two zero offsets make an empty record. */
  lemma ZeroFieldsReadEmpty(rest: seq<byte>)
    ensures var z := EncodeInt32(0);
      ReadRecordTail(0, 0, z + (z + (z + rest))) == Some((Record(0, 0, 0, "", ""), rest))
  {
    var z := EncodeInt32(0);
    ZeroEncodings();
    ReadUint32Encoded(0, z + (z + rest));
    ReadStringEncoded("", z + rest);
    ReadStringEncoded("", rest);
  }

  /** Loading a saved pair of annotations into a one-byte document, the
      first lying outside it, keeps the second. */
  lemma SkippedRecordExampleCorrected()
    ensures var body := EncodeRecord(Record(5, 5, 0, "", "")) + EncodeRecord(Record(0, 0, 9, "x", "hex"));
      ParseRecords(body, 2, 1) == Some(([Record(0, 0, 9, "x", "hex")], []))
  {
    var skipped := Record(5, 5, 0, "", "");
    var kept := Record(0, 0, 9, "x", "hex");
    var rs := [skipped, kept];
    assert rs[1..] == [kept];
    assert [kept][1..] == [];
    assert EncodeRecords([kept]) == EncodeRecord(kept);
    assert EncodeRecords(rs) + [] == EncodeRecord(skipped) + EncodeRecord(kept);
    ParseEncodedRecords(rs, [], 1);
    assert Filter([kept], 1) == [kept];
  }

  /** The same file through the loop as written: the second annotation is
      lost, and a record made of the first one's trailing zero fields and
      the second one's offsets is kept instead. */
  lemma SkippedRecordExampleAsWritten()
    ensures var body := EncodeRecord(Record(5, 5, 0, "", "")) + EncodeRecord(Record(0, 0, 9, "x", "hex"));
      && ParseRecordsAsWritten(body, 2, 1).Some?
      && ParseRecordsAsWritten(body, 2, 1).value.0 == [Record(0, 0, 0, "", "")]
  {
    var skipped := Record(5, 5, 0, "", "");
    var kept := Record(0, 0, 9, "x", "hex");
    var z := EncodeInt32(0);
    var r := EncodeUint32(9) + (EncodeString("x") + EncodeString("hex"));
    SkippedRecordMisalignsAsWritten(skipped, EncodeRecord(kept), 2, 1);
    ZeroEncodings();
    RecordAfterOffsets(skipped);
    assert EncodeRecord(skipped)[8..] == z + (z + z);
    assert EncodeRecord(kept) == z + (z + r);
    RightNested(z, z, z, z + (z + r));
    ZeroRecordThenStop(r);
  }

  /** What follows the two offsets of an encoded record. */
  lemma RecordAfterOffsets(rec: Record)
    requires FitsLength(rec.labelText) && FitsLength(rec.format)
    ensures EncodeRecord(rec)[8..] == EncodeUint32(rec.color) + (EncodeString(rec.labelText) + EncodeString(rec.format))
  {
  }

  /** Concatenation regrouped to the right. */
  lemma RightNested(a: seq<byte>, b: seq<byte>, c: seq<byte>, d: seq<byte>)
    ensures (a + (b + c)) + d == a + (b + (c + d))
  {
  }

  /** Five zero fields read by the loop as written, with one record to go,
      make one empty record that lies inside a one-byte document. */
  lemma ZeroRecordThenStop(r: seq<byte>)
    ensures var z := EncodeInt32(0);
      ParseRecordsAsWritten(z + (z + (z + (z + (z + r)))), 1, 1) == Some(([Record(0, 0, 0, "", "")], r))
  {
    var z := EncodeInt32(0);
    var s := z + (z + (z + (z + (z + r))));
    assert s[..4] == z && s[4..8] == z && s[8..] == z + (z + (z + r));
    DecodeEncodeInt32(0);
    assert |s| >= 8 && DecodeInt32(s[..4]) == 0 && DecodeInt32(s[4..8]) == 0;
    assert InBounds(0, 0, 1);
    ZeroFieldsReadEmpty(r);
    assert ReadRecordTail(0, 0, s[8..]) == Some((Record(0, 0, 0, "", ""), r));
    assert ParseRecordsAsWritten(r, 0, 1) == Some(([], r));
    assert [Record(0, 0, 0, "", "")] + [] == [Record(0, 0, 0, "", "")];
  }

  // ---------------------------------------------------------------------
  // Loading into a window

  /** The annotation a loaded record becomes. Its palette slot is never
      assigned by the loader, so it is whatever `colorIndex` holds. */
  function AnnotationOf(rec: Record, colorIndex: int): Annotation {
    Annotation(rec.startOffset, rec.endOffset, rec.labelText, rec.format, rec.color, colorIndex)
  }

  function Installed(records: seq<Record>, colorIndexes: nat -> int): (r: seq<Annotation>)
    ensures |r| == |records|
    ensures Records(r) == records
  {
    var r := seq(|records|, i requires 0 <= i < |records| => AnnotationOf(records[i], colorIndexes(i)));
    assert Records(r) == records by {
      forall i | 0 <= i < |records|
        ensures Records(r)[i] == records[i]
      {
        assert r[i] == AnnotationOf(records[i], colorIndexes(i));
      }
    }
    r
  }

  /** `LoadAnnotationsFromFile` on a window, with the record loop corrected
      and the byte-range table rebuilt for the new list. `colorIndexes` gives
      the uninitialised palette slot of each loaded annotation. Anything but
      a successful parse leaves the window unchanged. */
  function Load(st: DocumentState, bytes: seq<byte>, confirmMismatch: bool, colorIndexes: nat -> int): (r: DocumentState)
    requires WellFormed(st)
    ensures WellFormed(r)
    ensures var p := Parse(bytes, |st.fileData|, st.fileName, confirmMismatch);
      && (!p.Loaded? ==> r == st)
      && (p.Loaded? ==> Records(r.annotations) == p.records
                        && r.(annotations := st.annotations, ranges := st.ranges) == st
                        && TableDescribes(r.ranges, r.fileData, r.annotations))
  {
    var p := Parse(bytes, |st.fileData|, st.fileName, confirmMismatch);
    if p.Loaded? then
      var annotations := Installed(p.records, colorIndexes);
      assert AnnotationsInBounds(annotations, |st.fileData|) by {
        forall i | 0 <= i < |annotations|
          ensures 0 <= annotations[i].startOffset <= annotations[i].endOffset < |st.fileData|
        {
          assert InBounds(p.records[i].startOffset, p.records[i].endOffset, |st.fileData|);
        }
      }
      Rebuild(st.(annotations := annotations))
    else st
  }

  /** `LoadAnnotationsFromFile` as written: the record loop misaligns after
      a skipped record, and the byte-range table is left as it was. */
  function LoadAsWritten(st: DocumentState, bytes: seq<byte>, confirmMismatch: bool, colorIndexes: nat -> int): (r: DocumentState)
    requires WellFormed(st)
    ensures WellFormed(r)
    ensures r.ranges == st.ranges
    ensures var p := ParseAsWritten(bytes, |st.fileData|, st.fileName, confirmMismatch);
      && (!p.Loaded? ==> r == st)
      && (p.Loaded? ==> Records(r.annotations) == p.records && r.(annotations := st.annotations) == st)
  {
    var p := ParseAsWritten(bytes, |st.fileData|, st.fileName, confirmMismatch);
    if p.Loaded? then
      var annotations := Installed(p.records, colorIndexes);
      assert AnnotationsInBounds(annotations, |st.fileData|) by {
        forall i | 0 <= i < |annotations|
          ensures 0 <= annotations[i].startOffset <= annotations[i].endOffset < |st.fileData|
        {
          assert InBounds(p.records[i].startOffset, p.records[i].endOffset, |st.fileData|);
        }
      }
      st.(annotations := annotations)
    else st
  }

  /** Loading as written leaves a table that does not describe the loaded
      list whenever the number of annotations changes, e.g. loading one
      annotation into a window that had none leaves the table empty. */
  lemma LoadAsWrittenLeavesTableStale(st: DocumentState, bytes: seq<byte>, confirmMismatch: bool, colorIndexes: nat -> int)
    requires WellFormed(st)
    requires var p := ParseAsWritten(bytes, |st.fileData|, st.fileName, confirmMismatch);
      p.Loaded? && |p.records| != |st.ranges|
    ensures var r := LoadAsWritten(st, bytes, confirmMismatch, colorIndexes);
      !TableDescribes(r.ranges, r.fileData, r.annotations)
  {
  }

  /** Saving a window's annotations and loading the file back into the same
      window restores every annotation's offsets, colour, label and format,
      in order, with a table that describes them. */
  lemma WindowSaveLoadRoundTrip(st: DocumentState, confirmMismatch: bool, colorIndexes: nat -> int)
    requires WellFormed(st)
    requires Encodable(st.fileName, st.annotations) && |st.annotations| > 0
    ensures var r := Load(st, Serialize(st.fileName, st.annotations).value, confirmMismatch, colorIndexes);
      && Records(r.annotations) == Records(st.annotations)
      && TableDescribes(r.ranges, r.fileData, r.annotations)
  {
    SaveLoadRoundTrip(st.fileName, st.annotations, |st.fileData|, confirmMismatch);
    FilterKeepsInBounds(Records(st.annotations), |st.fileData|);
  }
}

=== FILE: annotations.dfy ===
/** The annotation list and the commands of the hex view's context menu:
    finding the annotation under the cursor, creating, editing, removing and
    re-formatting annotations, and rebuilding the byte-range table after
    each of them. */
module Annotations {
  import opened Bytes
  import opened SpanFormat
  import opened Document
  import opened InputDialog

  /** The lowest index whose annotation covers `offset`, or -1 when none does. */
  function FindCovering(annotations: seq<Annotation>, offset: int): (r: int)
    ensures -1 <= r < |annotations|
    ensures r >= 0 ==> Covers(annotations[r], offset)
    ensures forall j :: 0 <= j < |annotations| && (r < 0 || j < r) ==> !Covers(annotations[j], offset)
  {
    if |annotations| == 0 then -1
    else if Covers(annotations[0], offset) then 0
    else
      var k := FindCovering(annotations[1..], offset);
      assert forall j :: 1 <= j < |annotations| ==> annotations[j] == annotations[1..][j - 1];
      if k < 0 then -1 else k + 1
  }

  // ---------------------------------------------------------------------
  // Create

  /** True when `CreateAnnotation` appends: a selection exists, the document
      is not empty and the dialog came back with a non-empty label. */
  predicate CreatesAnnotation(st: DocumentState, reply: Reply) {
    && st.selectionStart >= 0 && st.selectionEnd >= 0 && |st.fileData| > 0
    && ShowDialog(reply).labelBuffer != ""
  }

  /** `CreateAnnotation`: the dialog opens with an empty label and format
      "hex"; a non-empty label appends an annotation over the normalised
      selection with the next palette colour. `color` is the value the
      record's uninitialised colour field happens to hold. */
  function CreateAnnotation(st: DocumentState, reply: Reply, color: uint32): (r: DocumentState)
    ensures !CreatesAnnotation(st, reply) ==> r == st
    ensures CreatesAnnotation(st, reply) ==>
      && r.(annotations := st.annotations, isAnnotating := st.isAnnotating) == st
      && !r.isAnnotating
      && |r.annotations| == |st.annotations| + 1
      && r.annotations[..|st.annotations|] == st.annotations
      && NewAnnotationFromSelection(st, reply, r.annotations[|st.annotations|])
      && r.annotations[|st.annotations|].color == color
  {
    if !(st.selectionStart >= 0 && st.selectionEnd >= 0 && |st.fileData| > 0) then st
    else
      var selStart: int32 := if st.selectionStart <= st.selectionEnd then st.selectionStart else st.selectionEnd;
      var selEnd: int32 := if st.selectionStart >= st.selectionEnd then st.selectionStart else st.selectionEnd;
      var buffers := ShowDialog(reply);
      if buffers.labelBuffer == "" then st
      else
        var a := Annotation(selStart, selEnd, buffers.labelBuffer, buffers.formatBuffer, color,
                            |st.annotations| % PALETTE_SIZE);
        st.(annotations := st.annotations + [a], isAnnotating := false)
  }

  /** What a created annotation is: the selection's two ends in ascending
      order, the label and format the confirmed dialog left in its buffers
      (a non-empty label of at most 255 characters, one of the offered
      formats), and the colour slot after the existing ones. */
  predicate NewAnnotationFromSelection(st: DocumentState, reply: Reply, a: Annotation) {
    && reply.Confirmed?
    && a.startOffset <= a.endOffset
    && {a.startOffset, a.endOffset} == {st.selectionStart, st.selectionEnd}
    && a.labelText == ShowDialog(reply).labelBuffer && a.format == ShowDialog(reply).formatBuffer
    && a.labelText != "" && |a.labelText| < LABEL_BUFFER_SIZE
    && |a.labelText| <= |reply.editText| && a.labelText == reply.editText[..|a.labelText|]
    && a.format in OfferedFormats
    && 0 <= a.colorIndex < PALETTE_SIZE && a.colorIndex == |st.annotations| % PALETTE_SIZE
  }

  /** A dismissed dialog creates nothing, whatever the selection. */
  lemma DismissedDialogCreatesNothing(st: DocumentState, color: uint32)
    ensures CreateAnnotation(st, Dismissed, color) == st
  {
  }

  /** Colour indexes cycle through the palette: the k-th annotation created
      on an empty list gets slot k mod 6, so consecutive creations differ. */
  lemma CreatedColorsCycle(st: DocumentState, reply: Reply, color: uint32)
    requires CreatesAnnotation(st, reply)
    ensures var r := CreateAnnotation(st, reply, color);
      var n := |st.annotations|;
      && r.annotations[n].colorIndex == n % PALETTE_SIZE
      && (n > 0 && st.annotations[n - 1].colorIndex == (n - 1) % PALETTE_SIZE ==>
            r.annotations[n].colorIndex == (st.annotations[n - 1].colorIndex + 1) % PALETTE_SIZE)
  {
  }

  // ---------------------------------------------------------------------
  // Edit

  /** True when `EditAnnotation` changes annotation `index`: it exists and
      the dialog came back with a non-empty label. */
  predicate EditsAnnotation(annotations: seq<Annotation>, index: int, reply: Reply) {
    0 <= index < |annotations| && ShowDialog(reply).labelBuffer != ""
  }

  /** `EditAnnotation`: the dialog opens with the annotation's label and
      format; a non-empty label replaces both, everything else is kept. */
  function EditAnnotation(annotations: seq<Annotation>, index: int, reply: Reply): (r: seq<Annotation>)
    ensures |r| == |annotations|
    ensures forall j :: 0 <= j < |r| && j != index ==> r[j] == annotations[j]
    ensures !EditsAnnotation(annotations, index, reply) ==> r == annotations
    ensures EditsAnnotation(annotations, index, reply) ==>
      && r[index].(labelText := annotations[index].labelText, format := annotations[index].format) == annotations[index]
      && r[index].labelText == ShowDialog(reply).labelBuffer && r[index].format == ShowDialog(reply).formatBuffer
      && r[index].labelText != "" && |r[index].labelText| < LABEL_BUFFER_SIZE
      && r[index].format in OfferedFormats
  {
    if !(0 <= index < |annotations|) then annotations
    else
      var buffers := ShowDialog(reply);
      if buffers.labelBuffer == "" then annotations
      else annotations[index := annotations[index].(labelText := buffers.labelBuffer, format := buffers.formatBuffer)]
  }

  /** Confirming the edit dialog untouched keeps an annotation whose format
      the dialog offers, and turns any other format ("double", "unicode")
      into "hex". */
  lemma UntouchedEditResetsUnofferedFormat(annotations: seq<Annotation>, index: int)
    requires 0 <= index < |annotations|
    requires annotations[index].labelText != "" && |annotations[index].labelText| < LABEL_BUFFER_SIZE
    ensures var a := annotations[index];
      var r := EditAnnotation(annotations, index, UntouchedReply(a.labelText, a.format));
      && (a.format in OfferedFormats ==> r == annotations)
      && (a.format !in OfferedFormats ==> r[index] == a.(format := "hex"))
  {
    var a := annotations[index];
    UntouchedDialogKeepsOfferedFormat(a.labelText, a.format);
    if a.format in OfferedFormats {
      assert annotations[index := a] == annotations;
    }
  }

  /** What the user types and selects is what the annotation gets: a
      confirmed label that fits the buffer and a selected offered format
      reach the created or edited annotation unchanged. */
  lemma ConfirmedChoiceReachesAnnotation(st: DocumentState, annotations: seq<Annotation>, index: int,
                                         text: Text, selection: int, color: uint32)
    requires text != "" && |text| < LABEL_BUFFER_SIZE && 0 <= selection < |OfferedFormats|
    ensures var reply := Confirmed(text, selection);
      var r := CreateAnnotation(st, reply, color);
      st.selectionStart >= 0 && st.selectionEnd >= 0 && |st.fileData| > 0 ==>
        && |r.annotations| == |st.annotations| + 1
        && r.annotations[|st.annotations|].labelText == text
        && r.annotations[|st.annotations|].format == OfferedFormats[selection]
    ensures var reply := Confirmed(text, selection);
      0 <= index < |annotations| ==>
        EditAnnotation(annotations, index, reply)[index]
          == annotations[index].(labelText := text, format := OfferedFormats[selection])
  {
  }

  // ---------------------------------------------------------------------
  // Remove and set format

  /** `annotations.erase(begin() + index)`. */
  function RemoveAt(annotations: seq<Annotation>, index: nat): (r: seq<Annotation>)
    requires index < |annotations|
    ensures |r| == |annotations| - 1
    ensures forall j :: 0 <= j < index ==> r[j] == annotations[j]
    ensures forall j :: index <= j < |r| ==> r[j] == annotations[j + 1]
    ensures multiset(r) + multiset{annotations[index]} == multiset(annotations)
  {
    assert annotations == annotations[..index] + [annotations[index]] + annotations[index + 1..];
    annotations[..index] + annotations[index + 1..]
  }

  const CMD_EDIT: int := 2001
  const CMD_REMOVE: int := 2002
  const CMD_FORMAT_HEX: int := 2003
  const CMD_FORMAT_UNICODE: int := 2008
  const CMD_CREATE: int := 2009

  /** The format a "set format" menu command selects. */
  function MenuFormat(command: int): (r: Option<Text>)
    ensures r.Some? <==> CMD_FORMAT_HEX <= command <= CMD_FORMAT_UNICODE
    ensures r.Some? ==> r.value in SpanFormats
  {
    if command == 2003 then Some("hex")
    else if command == 2004 then Some("int")
    else if command == 2005 then Some("float")
    else if command == 2006 then Some("double")
    else if command == 2007 then Some("ascii")
    else if command == 2008 then Some("unicode")
    else None
  }

  /** The six menu commands select six different formats, and every name
      the span formatter knows has a command. */
  lemma MenuFormatsBijective(c1: int, c2: int, f: Text)
    ensures MenuFormat(c1).Some? && MenuFormat(c1) == MenuFormat(c2) ==> c1 == c2
    ensures f in SpanFormats ==> exists c :: CMD_FORMAT_HEX <= c <= CMD_FORMAT_UNICODE && MenuFormat(c) == Some(f)
  {
    if f in SpanFormats {
      if f == "hex" { assert MenuFormat(2003) == Some(f); }
      else if f == "int" { assert MenuFormat(2004) == Some(f); }
      else if f == "float" { assert MenuFormat(2005) == Some(f); }
      else if f == "double" { assert MenuFormat(2006) == Some(f); }
      else if f == "ascii" { assert MenuFormat(2007) == Some(f); }
      else { assert MenuFormat(2008) == Some(f); }
    }
  }

  // ---------------------------------------------------------------------
  // Byte-range table

  /** The table entry `tagBytesThatAreAnnotated` builds for annotation `i`. */
  function RangeEntry(data: seq<byte>, annotations: seq<Annotation>, i: nat): ByteRange
    requires i < |annotations| && AnnotationsInBounds(annotations, |data|)
  {
    var a := annotations[i];
    var length := a.endOffset - a.startOffset + 1;
    ByteRange(a.startOffset, a.endOffset,
              AnnotationInfo(FormatData(data, a.startOffset, length, a.format), a.colorIndex, length, a.startOffset, i))
  }

  /** True when `ranges` is the table for `annotations` over `data`, entry i
      describing annotation i. */
  predicate TableDescribes(ranges: seq<ByteRange>, data: seq<byte>, annotations: seq<Annotation>)
    requires AnnotationsInBounds(annotations, |data|)
  {
    |ranges| == |annotations| && forall i :: 0 <= i < |ranges| ==> ranges[i] == RangeEntry(data, annotations, i)
  }

  /** `tagBytesThatAreAnnotated`: replaces the table wholesale by one entry
      per annotation, in annotation order. */
  function Rebuild(st: DocumentState): (r: DocumentState)
    requires AnnotationsInBounds(st.annotations, |st.fileData|)
    ensures r.(ranges := st.ranges) == st
    ensures TableDescribes(r.ranges, r.fileData, r.annotations)
  {
    st.(ranges := seq(|st.annotations|, i requires 0 <= i < |st.annotations| => RangeEntry(st.fileData, st.annotations, i)))
  }

  /** True when `ranges` holds one entry per annotation in any order: each
      entry is the one `tagBytesThatAreAnnotated` builds for the annotation
      its `annotationIndex` names, and every annotation has an entry. This
      is what the table keeps through `std::sort`, whatever order that
      leaves. */
  predicate TableHolds(ranges: seq<ByteRange>, data: seq<byte>, annotations: seq<Annotation>)
    requires AnnotationsInBounds(annotations, |data|)
  {
    && |ranges| == |annotations|
    && (forall k :: 0 <= k < |ranges| ==>
          && 0 <= ranges[k].info.annotationIndex < |annotations|
          && ranges[k] == RangeEntry(data, annotations, ranges[k].info.annotationIndex))
    && (forall i :: 0 <= i < |annotations| ==> HasEntryFor(ranges, i))
  }

  /** Some entry of `ranges` points back at annotation `i`. */
  predicate HasEntryFor(ranges: seq<ByteRange>, i: int) {
    exists k :: 0 <= k < |ranges| && ranges[k].info.annotationIndex == i
  }

  /** The table in annotation order holds, so the rebuilt table does. */
  lemma DescribedTableHolds(ranges: seq<ByteRange>, data: seq<byte>, annotations: seq<Annotation>)
    requires AnnotationsInBounds(annotations, |data|)
    requires TableDescribes(ranges, data, annotations)
    ensures TableHolds(ranges, data, annotations)
  {
    forall i | 0 <= i < |annotations|
      ensures HasEntryFor(ranges, i)
    {
      assert ranges[i].info.annotationIndex == i;
    }
  }

  /** Any reordering of a table that holds, such as the one `std::sort`
      makes, still holds: `order[j]` is the old position of new entry j, and
      every old entry is taken. */
  lemma ReorderedTableHolds(ranges: seq<ByteRange>, data: seq<byte>, annotations: seq<Annotation>, order: seq<nat>)
    requires AnnotationsInBounds(annotations, |data|)
    requires TableHolds(ranges, data, annotations)
    requires |order| == |ranges| && forall j :: 0 <= j < |order| ==> order[j] < |ranges|
    requires forall k :: 0 <= k < |ranges| ==> Takes(order, k)
    ensures TableHolds(seq(|order|, j requires 0 <= j < |order| => ranges[order[j]]), data, annotations)
  {
    var sorted := seq(|order|, j requires 0 <= j < |order| => ranges[order[j]]);
    forall i | 0 <= i < |annotations|
      ensures HasEntryFor(sorted, i)
    {
      assert HasEntryFor(ranges, i);
      var k :| 0 <= k < |ranges| && ranges[k].info.annotationIndex == i;
      assert Takes(order, k);
      var j :| 0 <= j < |order| && order[j] == k;
      assert sorted[j].info.annotationIndex == i;
    }
  }

  /** Some position of `order` takes old entry `k`. */
  predicate Takes(order: seq<nat>, k: nat) {
    exists j :: 0 <= j < |order| && order[j] == k
  }

  /** What a table entry holds, in whatever order the table is: the entry
      pointing at annotation i covers exactly the offsets annotation i
      covers, its length is the annotation's byte count, and its value is the
      annotation's bytes, read without clamping, in the annotation's format. */
  lemma TableEntryMeaning(ranges: seq<ByteRange>, data: seq<byte>, annotations: seq<Annotation>, k: nat, offset: int)
    requires AnnotationsInBounds(annotations, |data|)
    requires TableHolds(ranges, data, annotations)
    requires k < |ranges|
    ensures var e := ranges[k];
      var a := annotations[e.info.annotationIndex];
      && (e.rangeStart <= offset <= e.rangeEnd <==> Covers(a, offset))
      && e.info.startOffset == a.startOffset
      && e.info.length == e.rangeEnd - e.rangeStart + 1 >= 1
      && Span(data, a.startOffset, e.info.length) == data[a.startOffset..a.endOffset + 1]
      && e.info.formattedValue == FormatData(data, a.startOffset, e.info.length, a.format)
  {
  }

  /** Looking an offset up in the table, in whatever order it is, agrees
      with the linear search of the context-menu handler: some entry contains
      the offset exactly when the search succeeds, every entry containing it
      points at an annotation covering it, and the lowest annotation index
      among those entries is the one the search finds. */
  lemma TableAgreesWithSearch(ranges: seq<ByteRange>, data: seq<byte>, annotations: seq<Annotation>, offset: int)
    requires AnnotationsInBounds(annotations, |data|)
    requires TableHolds(ranges, data, annotations)
    ensures var k := FindCovering(annotations, offset);
      && (k >= 0 <==> exists j :: 0 <= j < |ranges| && ranges[j].rangeStart <= offset <= ranges[j].rangeEnd)
      && (forall j :: 0 <= j < |ranges| && ranges[j].rangeStart <= offset <= ranges[j].rangeEnd ==>
            && Covers(annotations[ranges[j].info.annotationIndex], offset)
            && k <= ranges[j].info.annotationIndex)
      && (k >= 0 ==> exists j :: 0 <= j < |ranges| && ranges[j].info.annotationIndex == k
                                && ranges[j].rangeStart <= offset <= ranges[j].rangeEnd)
  {
    var k := FindCovering(annotations, offset);
    if k >= 0 {
      assert HasEntryFor(ranges, k);
      var j :| 0 <= j < |ranges| && ranges[j].info.annotationIndex == k;
      assert ranges[j].rangeStart <= offset <= ranges[j].rangeEnd;
    }
  }

  // ---------------------------------------------------------------------
  // Context menu and commands

  /** The popup menu `ShowContextMenu` offers: the annotation commands for
      the annotation under the cursor with one check mark per format entry
      (hex, int, float, double, ascii, unicode), "Create Annotation" when
      there is only a selection, or no menu. */
  datatype Menu = AnnotationMenu(index: nat, checked: seq<bool>) | CreateMenu | NoMenu

  function ContextMenu(st: DocumentState): (r: Menu)
    ensures r.AnnotationMenu? <==> st.cursorPosition >= 0 && FindCovering(st.annotations, st.cursorPosition) >= 0
    ensures r.AnnotationMenu? ==>
      && r.index == FindCovering(st.annotations, st.cursorPosition)
      && |r.checked| == 6
      && forall k :: 0 <= k < 6 ==> (r.checked[k] <==> Some(st.annotations[r.index].format) == MenuFormat(CMD_FORMAT_HEX + k))
    ensures r.CreateMenu? <==> !r.AnnotationMenu? && st.selectionStart >= 0 && st.selectionEnd >= 0
  {
    var index := if st.cursorPosition >= 0 then FindCovering(st.annotations, st.cursorPosition) else -1;
    if index >= 0 then
      var f := st.annotations[index].format;
      AnnotationMenu(index, [f == "hex", f == "int", f == "float", f == "double", f == "ascii", f == "unicode"])
    else if st.selectionStart >= 0 && st.selectionEnd >= 0 then CreateMenu
    else NoMenu
  }

  /** At most one format entry of the annotation menu carries a check mark. */
  lemma AtMostOneCheckMark(st: DocumentState, k1: nat, k2: nat)
    requires ContextMenu(st).AnnotationMenu?
    requires k1 < 6 && k2 < 6
    requires ContextMenu(st).checked[k1] && ContextMenu(st).checked[k2]
    ensures k1 == k2
  {
    MenuFormatsBijective(CMD_FORMAT_HEX + k1, CMD_FORMAT_HEX + k2, "");
  }

  /** Only the annotation list, the annotating flag and the byte-range table
      differ between `st` and `r`. */
  predicate OnlyListChanged(st: DocumentState, r: DocumentState) {
    r.(annotations := st.annotations, isAnnotating := st.isAnnotating, ranges := st.ranges) == st
  }

  /** Installs a new annotation list and rebuilds the table for it. */
  function Install(st: DocumentState, annotations: seq<Annotation>): (r: DocumentState)
    requires WellFormed(st)
    requires AnnotationsInBounds(annotations, |st.fileData|)
    ensures WellFormed(r) && OnlyListChanged(st, r) && r.isAnnotating == st.isAnnotating
    ensures r.annotations == annotations && TableDescribes(r.ranges, r.fileData, r.annotations)
  {
    Rebuild(st.(annotations := annotations))
  }

  /** Command 2001, "Edit Annotation". */
  function EditCommand(st: DocumentState, reply: Reply): (r: DocumentState)
    requires WellFormed(st)
    ensures WellFormed(r) && OnlyListChanged(st, r) && r.isAnnotating == st.isAnnotating
    ensures r.annotations == EditAnnotation(st.annotations, FindCovering(st.annotations, st.cursorPosition), reply)
    ensures var k := FindCovering(st.annotations, st.cursorPosition);
      && (k < 0 ==> r == st)
      && (k >= 0 ==> TableDescribes(r.ranges, r.fileData, r.annotations))
  {
    var index := FindCovering(st.annotations, st.cursorPosition);
    if index >= 0 then
      var annotations := EditAnnotation(st.annotations, index, reply);
      assert AnnotationsInBounds(annotations, |st.fileData|) by {
        forall j | 0 <= j < |annotations|
          ensures 0 <= annotations[j].startOffset <= annotations[j].endOffset < |st.fileData|
        {
          assert annotations[j].startOffset == st.annotations[j].startOffset;
          assert annotations[j].endOffset == st.annotations[j].endOffset;
        }
      }
      Install(st, annotations)
    else st
  }

  /** Command 2002, "Remove Annotation". */
  function RemoveCommand(st: DocumentState): (r: DocumentState)
    requires WellFormed(st)
    ensures WellFormed(r) && OnlyListChanged(st, r) && r.isAnnotating == st.isAnnotating
    ensures var k := FindCovering(st.annotations, st.cursorPosition);
      && (k < 0 ==> r == st)
      && (k >= 0 ==> r.annotations == st.annotations[..k] + st.annotations[k + 1..]
                     && TableDescribes(r.ranges, r.fileData, r.annotations))
  {
    var index := FindCovering(st.annotations, st.cursorPosition);
    if index >= 0 then
      var annotations := RemoveAt(st.annotations, index);
      assert AnnotationsInBounds(annotations, |st.fileData|) by {
        forall j | 0 <= j < |annotations|
          ensures 0 <= annotations[j].startOffset <= annotations[j].endOffset < |st.fileData|
        {
          if j >= index { assert annotations[j] == st.annotations[j + 1]; }
        }
      }
      Install(st, annotations)
    else st
  }

  /** Commands 2003 to 2008, the six "set format" entries. */
  function FormatCommand(st: DocumentState, format: Text): (r: DocumentState)
    requires WellFormed(st)
    ensures WellFormed(r) && OnlyListChanged(st, r) && r.isAnnotating == st.isAnnotating
    ensures var k := FindCovering(st.annotations, st.cursorPosition);
      && (k < 0 ==> r == st)
      && (k >= 0 ==> |r.annotations| == |st.annotations|
                     && r.annotations[k] == st.annotations[k].(format := format)
                     && (forall j :: 0 <= j < |r.annotations| && j != k ==> r.annotations[j] == st.annotations[j])
                     && TableDescribes(r.ranges, r.fileData, r.annotations))
  {
    var index := FindCovering(st.annotations, st.cursorPosition);
    if index >= 0 then
      var annotations := st.annotations[index := st.annotations[index].(format := format)];
      assert AnnotationsInBounds(annotations, |st.fileData|) by {
        forall j | 0 <= j < |annotations|
          ensures 0 <= annotations[j].startOffset <= annotations[j].endOffset < |st.fileData|
        {
          assert annotations[j].startOffset == st.annotations[j].startOffset;
        }
      }
      Install(st, annotations)
    else st
  }

  /** Command 2009, "Create Annotation". */
  function CreateCommand(st: DocumentState, reply: Reply, color: uint32): (r: DocumentState)
    requires WellFormed(st)
    ensures WellFormed(r) && OnlyListChanged(st, r)
    ensures r.annotations == CreateAnnotation(st, reply, color).annotations
    ensures r.isAnnotating == CreateAnnotation(st, reply, color).isAnnotating
    ensures !(st.selectionStart >= 0 && st.selectionEnd >= 0) ==> r == st
    ensures st.selectionStart >= 0 && st.selectionEnd >= 0 ==> TableDescribes(r.ranges, r.fileData, r.annotations)
  {
    if st.selectionStart >= 0 && st.selectionEnd >= 0 then
      var created := CreateAnnotation(st, reply, color);
      assert AnnotationsInBounds(created.annotations, |st.fileData|) by {
        if CreatesAnnotation(st, reply) {
          var n := |st.annotations|;
          forall j | 0 <= j < |created.annotations|
            ensures 0 <= created.annotations[j].startOffset <= created.annotations[j].endOffset < |st.fileData|
          {
            if j < n { assert created.annotations[j] == created.annotations[..n][j]; }
          }
        }
      }
      Rebuild(created)
    else st
  }

  /** The `WM_COMMAND` handler of the hex view for the context-menu
      commands. Each command that finds its annotation (or, for "Create", a
      selection) rebuilds the byte-range table afterwards. `reply` is what
      the user does in the dialog that "Edit" and "Create" open. */
  function HandleCommand(st: DocumentState, command: int, reply: Reply, color: uint32): (r: DocumentState)
    requires WellFormed(st)
    ensures WellFormed(r)
    ensures OnlyListChanged(st, r)
    ensures !(CMD_EDIT <= command <= CMD_CREATE) ==> r == st
    ensures command != CMD_CREATE ==> r.isAnnotating == st.isAnnotating
  {
    if command == CMD_EDIT then EditCommand(st, reply)
    else if command == CMD_REMOVE then RemoveCommand(st)
    else if MenuFormat(command).Some? then FormatCommand(st, MenuFormat(command).value)
    else if command == CMD_CREATE then CreateCommand(st, reply, color)
    else st
  }

  /** "Remove" deletes exactly the first annotation under the cursor and
      keeps the others in order; with none under the cursor it does nothing. */
  lemma RemoveDeletesFirstCovering(st: DocumentState, reply: Reply, color: uint32)
    requires WellFormed(st)
    ensures var r := HandleCommand(st, CMD_REMOVE, reply, color);
      var k := FindCovering(st.annotations, st.cursorPosition);
      && (k < 0 ==> r == st)
      && (k >= 0 ==> r.annotations == st.annotations[..k] + st.annotations[k + 1..]
                     && TableDescribes(r.ranges, r.fileData, r.annotations))
  {
  }

  /** A dismissed dialog leaves the annotation list alone, both for "Edit"
      and for "Create". */
  lemma DismissedDialogKeepsAnnotations(st: DocumentState, command: int, color: uint32)
    requires WellFormed(st)
    requires command == CMD_EDIT || command == CMD_CREATE
    ensures HandleCommand(st, command, Dismissed, color).annotations == st.annotations
  {
  }

  /** Choosing a format from the annotation menu sets that annotation's
      format, changes no other annotation, and the next menu opened at the
      same cursor shows the chosen entry checked. */
  lemma SetFormatIsChecked(st: DocumentState, k: nat, reply: Reply, color: uint32)
    requires WellFormed(st)
    requires ContextMenu(st).AnnotationMenu?
    requires k < 6
    ensures var r := HandleCommand(st, CMD_FORMAT_HEX + k, reply, color);
      var i := ContextMenu(st).index;
      && r.annotations[i] == st.annotations[i].(format := MenuFormat(CMD_FORMAT_HEX + k).value)
      && (forall j :: 0 <= j < |r.annotations| && j != i ==> r.annotations[j] == st.annotations[j])
      && ContextMenu(r) == AnnotationMenu(i, ContextMenu(r).checked)
      && ContextMenu(r).checked[k]
  {
    var r := HandleCommand(st, CMD_FORMAT_HEX + k, reply, color);
    var i := ContextMenu(st).index;
    assert forall j :: 0 <= j < |r.annotations| ==> (Covers(r.annotations[j], st.cursorPosition) <==> Covers(st.annotations[j], st.cursorPosition));
    FindCoveringDependsOnRanges(st.annotations, r.annotations, st.cursorPosition);
  }

  /** A new window has neither cursor nor selection: it offers no context
      menu, and no menu command changes it. */
  lemma FreshWindowIsInert(command: int, reply: Reply, color: uint32)
    ensures ContextMenu(FreshState()) == NoMenu
    ensures HandleCommand(FreshState(), command, reply, color) == FreshState()
  {
    FreshStateWellFormed();
  }

  /** The search looks only at each annotation's range. */
  lemma FindCoveringDependsOnRanges(a: seq<Annotation>, b: seq<Annotation>, offset: int)
    requires |a| == |b|
    requires forall j :: 0 <= j < |a| ==> (Covers(a[j], offset) <==> Covers(b[j], offset))
    ensures FindCovering(a, offset) == FindCovering(b, offset)
  {
  }
}

=== FILE: bytes.dfy ===
/** Byte-level vocabulary shared by every part of the model: the document's
    byte type, the one-byte C `char`, the `std::string` contents built from
    it, the fixed-width integer ranges of the C++ fields, and the
    printable-or-dot rule every text pane uses. */
module Bytes {

  /** An unsigned 8-bit value (`BYTE`, `uint8_t`). */
  type byte = b: int | 0 <= b < 256

  /** A one-byte C `char`: the only characters a `std::string` can hold. */
  type Char8 = c: char | c as int < 256

  /** The contents of a `std::string`. */
  type Text = seq<Char8>

  const INT32_MIN: int := -0x8000_0000
  const INT32_MAX: int := 0x7FFF_FFFF
  const TWO_POW_32: int := 0x1_0000_0000

  /** A C++ `int` (32-bit on the target platform). */
  type int32 = x: int | INT32_MIN <= x <= INT32_MAX

  /** A `DWORD`/`COLORREF`/`uint32_t`. */
  type uint32 = x: int | 0 <= x < TWO_POW_32

  /** The `char` whose code is `b`. */
  function ByteChar(b: byte): (c: Char8)
    ensures c as int == b
  {
    b as char
  }

  /** The raw bytes of a string, as `std::string::c_str()` exposes them. */
  function TextBytes(t: Text): (r: seq<byte>)
    ensures |r| == |t|
    ensures forall i :: 0 <= i < |t| ==> r[i] == t[i] as int
  {
    seq(|t|, i requires 0 <= i < |t| => t[i] as int)
  }

  /** The string built from raw bytes, as `std::string(buffer, length)` does. */
  function BytesText(s: seq<byte>): (r: Text)
    ensures |r| == |s|
    ensures forall i :: 0 <= i < |s| ==> r[i] as int == s[i]
  {
    seq(|s|, i requires 0 <= i < |s| => ByteChar(s[i]))
  }

  lemma TextBytesRoundTrip(t: Text)
    ensures BytesText(TextBytes(t)) == t
  {
    var r := BytesText(TextBytes(t));
    assert |r| == |t|;
    forall i | 0 <= i < |t|
      ensures r[i] == t[i]
    {
      assert r[i] as int == t[i] as int;
    }
  }

  /** The printable ASCII range [32, 126] that every pane shows verbatim. */
  predicate Printable(code: int) {
    32 <= code <= 126
  }

  /** A byte or code unit as the panes show it: itself when printable, '.' otherwise. */
  function DisplayChar(code: int): (c: Char8)
    ensures Printable(code) ==> c as int == code
    ensures !Printable(code) ==> c == '.'
  {
    if Printable(code) then code as char else '.'
  }

  /** `std::min` and `std::max` on `int`. */
  function Min(a: int, b: int): int { if a <= b then a else b }
  function Max(a: int, b: int): int { if a >= b then a else b }

  datatype Option<+T> = None | Some(value: T)
}

=== FILE: document.dfy ===
/** The records of the program: an annotation over a byte range, the cached
    byte-range table built from the annotations, and the per-window document
    state with its defaults. */
module Document {
  import opened Bytes
  import opened SpanFormat

  /** Number of bytes on one grid row. */
  const BYTES_PER_ROW: nat := 16

  /** Number of colours in the annotation palette; colour indexes cycle through it. */
  const PALETTE_SIZE: nat := 6

  /** The format a new document window offers first. */
  const DEFAULT_FORMAT: Text := "hex"

  /** The bytes of an open document. The program indexes them with `int`
      offsets, so the model takes documents of at most `INT32_MAX` bytes. */
  type FileBytes = s: seq<byte> | |s| <= INT32_MAX witness []

  /** A label and display format attached to the inclusive byte range
      [startOffset, endOffset]. `color` is the raw colour the file format stores;
      `colorIndex` selects the palette entry the window draws with. */
  datatype Annotation = Annotation(
    startOffset: int32,
    endOffset: int32,
    labelText: Text,
    format: Text,
    color: uint32,
    colorIndex: int)

  /** True when the offset lies inside the annotation's inclusive range. */
  predicate Covers(a: Annotation, offset: int) {
    a.startOffset <= offset <= a.endOffset
  }

  /** The pre-computed drawing data of one annotation. */
  datatype AnnotationInfo = AnnotationInfo(
    formattedValue: Value,
    colorIndex: int,
    length: int,
    startOffset: int,
    annotationIndex: int)

  /** One entry of the byte-range table that answers "which annotation covers
      this offset" while painting. */
  datatype ByteRange = ByteRange(rangeStart: int, rangeEnd: int, info: AnnotationInfo)

  /** The state of one hex-viewer window. `ranges` is the byte-range table. */
  datatype DocumentState = DocumentState(
    fileData: FileBytes,
    fileName: Text,
    scrollPosition: int,
    bytesPerPage: int,
    totalRows: int,
    cursorPosition: int32,
    selectionStart: int32,
    selectionEnd: int32,
    isSelecting: bool,
    annotations: seq<Annotation>,
    isAnnotating: bool,
    tempAnnotationLabel: Text,
    currentDisplayFormat: Text,
    ranges: seq<ByteRange>)

  /** A freshly constructed window state. */
  function FreshState(): (st: DocumentState)
    ensures st.cursorPosition == -1 && st.selectionStart == -1 && st.selectionEnd == -1
    ensures st.scrollPosition == 0 && st.bytesPerPage == 0 && st.totalRows == 0
    ensures !st.isSelecting && !st.isAnnotating
    ensures st.annotations == [] && st.ranges == [] && st.fileData == []
    ensures st.currentDisplayFormat == "hex"
  {
    DocumentState([], "", 0, 0, 0, -1, -1, -1, false, [], false, "", DEFAULT_FORMAT, [])
  }

  /** Every annotation lies inside the document with start <= end. */
  predicate AnnotationsInBounds(annotations: seq<Annotation>, size: nat) {
    forall i :: 0 <= i < |annotations| ==>
      0 <= annotations[i].startOffset <= annotations[i].endOffset < size
  }

  /** The invariant the window procedures keep: annotations inside the
      document, cursor and selection either unset (negative) or on a byte of
      the document. */
  predicate WellFormed(st: DocumentState) {
    && AnnotationsInBounds(st.annotations, |st.fileData|)
    && st.cursorPosition < |st.fileData|
    && st.selectionStart < |st.fileData|
    && st.selectionEnd < |st.fileData|
  }

  lemma FreshStateWellFormed()
    ensures WellFormed(FreshState())
  {
  }
}

=== FILE: hit_test.dfy ===
/** Mouse hit-testing in the hex view: the byte offset under a client point,
    and the cursor and selection updates of a left click, a drag and a right
    click. The left button and the drag test the hex cells 5 pixels further
    left than the right button does. */
module HitTest {
  import opened Bytes
  import opened Document
  import opened RowProjection

  /** How far left of a byte's text its hex cell starts: 5 for the left
      button and dragging, 0 for the right button. */
  const LEFT_INSET: int := 5
  const RIGHT_INSET: int := 0

  /** Width of one hex cell: two characters. */
  const CELL_WIDTH: int := CHAR_WIDTH * 2

  /** True when `x` falls in the hex cell of column `i`. */
  predicate InHexCell(x: int, inset: int, i: int) {
    HEX_MARGIN + i * HEX_BYTE_SPACING - inset <= x < HEX_MARGIN + i * HEX_BYTE_SPACING - inset + CELL_WIDTH
  }

  /** The loop `for (i = from; i < 16; ++i) if (x in cell i) break;`: the
      first column from `from` on whose cell holds `x`, or -1. Cells are 24
      pixels wide at a 20-pixel pitch, so neighbours overlap and the lower
      column wins. */
  function HexColumnFrom(x: int, inset: int, from: nat): (c: int)
    requires from <= BYTES_PER_ROW
    ensures c == -1 || from <= c < BYTES_PER_ROW
    ensures c >= 0 ==> InHexCell(x, inset, c)
    ensures forall i :: from <= i < BYTES_PER_ROW && (c < 0 || i < c) ==> !InHexCell(x, inset, i)
    decreases BYTES_PER_ROW - from
  {
    if from == BYTES_PER_ROW then -1
    else if InHexCell(x, inset, from) then from
    else HexColumnFrom(x, inset, from + 1)
  }

  /** The column arithmetic in closed form: the lowest column whose cell
      reaches past `x`, provided `x` is inside the run of sixteen cells. */
  function HexColumnClosed(x: int, inset: int): int {
    var left := HEX_MARGIN - inset;
    if x < left || x >= left + (BYTES_PER_ROW - 1) * HEX_BYTE_SPACING + CELL_WIDTH then -1
    else Max(0, (x - left - CELL_WIDTH) / HEX_BYTE_SPACING + 1)
  }

  /** The scanning loop and the closed form agree on every point. */
  lemma HexColumnMatchesClosedForm(x: int, inset: int)
    ensures HexColumnFrom(x, inset, 0) == HexColumnClosed(x, inset)
  {
    var c := HexColumnFrom(x, inset, 0);
    var d := HexColumnClosed(x, inset);
    if d >= 0 {
      assert InHexCell(x, inset, d);
      assert d > 0 ==> !InHexCell(x, inset, d - 1);
    } else {
      assert forall i :: 0 <= i < BYTES_PER_ROW ==> !InHexCell(x, inset, i);
    }
  }

  /** The byte offset under the client point (x, y) with the view scrolled
      to `scroll`, or -1: nothing on the header row, the hex pane between
      its margin and the ASCII pane, the ASCII pane at 12 pixels per column.
      `inset` selects the button's hex cells. */
  function OffsetAt(x: int, y: int, scroll: int, inset: int): (offset: int)
    requires y > ROW_HEIGHT
    ensures offset == -1 || offset / BYTES_PER_ROW == (y - ROW_HEIGHT) / ROW_HEIGHT + scroll
  {
    var row := (y - ROW_HEIGHT) / ROW_HEIGHT + scroll;
    if HEX_MARGIN <= x < ASCII_MARGIN then
      var col := HexColumnFrom(x, inset, 0);
      if col >= 0 then row * BYTES_PER_ROW + col else -1
    else if x >= ASCII_MARGIN then
      var charPos := (x - ASCII_MARGIN) / CHAR_WIDTH;
      if 0 <= charPos < BYTES_PER_ROW then row * BYTES_PER_ROW + charPos else -1
    else -1
  }

  /** A point `dy` pixels into the text band of a row on the page lies on
      that row; the band's top pixel line of the page's first row belongs to
      the header. */
  lemma PointOnRow(row: int, scroll: int, dy: int)
    requires row >= scroll && 0 <= dy < ROW_HEIGHT && (row > scroll || dy > 0)
    ensures RowY(row, scroll) + dy > ROW_HEIGHT
    ensures (RowY(row, scroll) + dy - ROW_HEIGHT) / ROW_HEIGHT + scroll == row
  {
    assert RowY(row, scroll) + dy - ROW_HEIGHT == (row - scroll) * ROW_HEIGHT + dy;
  }

  /** The left button finds a byte from the left edge of its hex text to 18
      pixels right of it. */
  lemma LeftClickFindsHexByte(row: int, col: int, scroll: int, dx: int, dy: int)
    requires row >= scroll && 0 <= col < BYTES_PER_ROW
    requires 0 <= dy < ROW_HEIGHT && (row > scroll || dy > 0)
    requires 0 <= dx < HEX_BYTE_SPACING - 1
    ensures OffsetAt(HEX_MARGIN + col * HEX_BYTE_SPACING + dx, RowY(row, scroll) + dy, scroll, LEFT_INSET)
      == row * BYTES_PER_ROW + col
  {
    PointOnRow(row, scroll, dy);
    var x := HEX_MARGIN + col * HEX_BYTE_SPACING + dx;
    HexColumnMatchesClosedForm(x, LEFT_INSET);
    assert x - (HEX_MARGIN - LEFT_INSET) - CELL_WIDTH == (col - 1) * HEX_BYTE_SPACING + (dx + 1);
    assert (x - (HEX_MARGIN - LEFT_INSET) - CELL_WIDTH) / HEX_BYTE_SPACING == col - 1;
  }

  /** The right button's cells start 5 pixels later than the left button's,
      so the first 4 pixels of a byte's hex text lie in the previous byte's
      overlapping cell, which wins; the right button finds the byte from 4 to
      19 pixels right of that edge. */
  lemma RightClickFindsHexByte(row: int, col: int, scroll: int, dx: int, dy: int)
    requires row >= scroll && 0 <= col < BYTES_PER_ROW
    requires 0 <= dy < ROW_HEIGHT && (row > scroll || dy > 0)
    requires 0 <= dx < HEX_BYTE_SPACING
    requires dx >= 4 || col == 0
    ensures OffsetAt(HEX_MARGIN + col * HEX_BYTE_SPACING + dx, RowY(row, scroll) + dy, scroll, RIGHT_INSET)
      == row * BYTES_PER_ROW + col
  {
    PointOnRow(row, scroll, dy);
    var x := HEX_MARGIN + col * HEX_BYTE_SPACING + dx;
    HexColumnMatchesClosedForm(x, RIGHT_INSET);
    assert x - (HEX_MARGIN - RIGHT_INSET) - CELL_WIDTH == (col - 1) * HEX_BYTE_SPACING + (dx - 4);
    if dx >= 4 {
      assert (x - (HEX_MARGIN - RIGHT_INSET) - CELL_WIDTH) / HEX_BYTE_SPACING == col - 1;
    }
  }

  lemma RightClickOverlapTakesPreviousByte(row: int, col: int, scroll: int, dx: int, dy: int)
    requires row >= scroll && 0 < col < BYTES_PER_ROW
    requires 0 <= dy < ROW_HEIGHT && (row > scroll || dy > 0)
    requires 0 <= dx < 4
    ensures OffsetAt(HEX_MARGIN + col * HEX_BYTE_SPACING + dx, RowY(row, scroll) + dy, scroll, RIGHT_INSET)
      == row * BYTES_PER_ROW + col - 1
  {
    PointOnRow(row, scroll, dy);
    var x := HEX_MARGIN + col * HEX_BYTE_SPACING + dx;
    HexColumnMatchesClosedForm(x, RIGHT_INSET);
    assert x - (HEX_MARGIN - RIGHT_INSET) - CELL_WIDTH == (col - 2) * HEX_BYTE_SPACING + (dx + 16);
    assert (x - (HEX_MARGIN - RIGHT_INSET) - CELL_WIDTH) / HEX_BYTE_SPACING == col - 2;
  }

  /** Either button finds a byte anywhere in its ASCII character cell. */
  lemma AsciiClickFindsByte(row: int, col: int, scroll: int, dx: int, dy: int, inset: int)
    requires row >= scroll && 0 <= col < BYTES_PER_ROW
    requires 0 <= dy < ROW_HEIGHT && (row > scroll || dy > 0)
    requires 0 <= dx < CHAR_WIDTH
    ensures OffsetAt(ASCII_MARGIN + col * CHAR_WIDTH + dx, RowY(row, scroll) + dy, scroll, inset) == row * BYTES_PER_ROW + col
  {
    PointOnRow(row, scroll, dy);
    assert (col * CHAR_WIDTH + dx) / CHAR_WIDTH == col;
  }

  /** A left click inside an annotation row's hex outline lands on a byte of
      that row span, except on the outline's two leftmost pixels, which lie in
      the previous byte's cell; inside its ASCII outline, right of the pane's
      margin, any click lands on the span. */
  lemma LeftClickInsideOutline(s: RowSpan, scroll: int, x: int, dy: int)
    requires 0 <= s.startCol <= s.endCol < BYTES_PER_ROW && s.row >= scroll
    requires 0 <= dy < ROW_HEIGHT && (s.row > scroll || dy > 0)
    ensures var y := RowY(s.row, scroll) + dy;
      && (HEX_MARGIN <= x && HexBox(s, scroll).left + 2 <= x < HexBox(s, scroll).right ==>
            s.row * BYTES_PER_ROW + s.startCol <= OffsetAt(x, y, scroll, LEFT_INSET) <= s.row * BYTES_PER_ROW + s.endCol)
      && (ASCII_MARGIN + s.startCol * CHAR_WIDTH <= x < AsciiBox(s, scroll).right ==>
            s.row * BYTES_PER_ROW + s.startCol <= OffsetAt(x, y, scroll, LEFT_INSET) <= s.row * BYTES_PER_ROW + s.endCol)
  {
    PointOnRow(s.row, scroll, dy);
    HexColumnMatchesClosedForm(x, LEFT_INSET);
  }

  /** The outline's two leftmost pixels of a span not starting at column 0
      select the byte before the annotation. */
  lemma OutlineRimSelectsPreviousByte(s: RowSpan, scroll: int, dy: int)
    requires 0 < s.startCol <= s.endCol < BYTES_PER_ROW && s.row >= scroll
    requires 0 <= dy < ROW_HEIGHT && (s.row > scroll || dy > 0)
    ensures OffsetAt(HexBox(s, scroll).left, RowY(s.row, scroll) + dy, scroll, LEFT_INSET)
      == s.row * BYTES_PER_ROW + s.startCol - 1
  {
    PointOnRow(s.row, scroll, dy);
    HexColumnMatchesClosedForm(HexBox(s, scroll).left, LEFT_INSET);
  }

  /** `WM_LBUTTONDOWN`: a click on a byte of a non-empty document puts the
      cursor there, starts a one-byte selection on it and begins selecting. */
  function LeftButtonDown(st: DocumentState, x: int, y: int): (r: DocumentState)
    ensures var o := if y > ROW_HEIGHT then OffsetAt(x, y, st.scrollPosition, LEFT_INSET) else -1;
      if |st.fileData| > 0 && y > ROW_HEIGHT && 0 <= o < |st.fileData| then
        r == st.(cursorPosition := o, selectionStart := o, selectionEnd := o, isSelecting := true)
      else r == st
  {
    if |st.fileData| == 0 || y <= ROW_HEIGHT then st
    else
      var offset := OffsetAt(x, y, st.scrollPosition, LEFT_INSET);
      if 0 <= offset < |st.fileData| then
        st.(cursorPosition := offset, selectionStart := offset, selectionEnd := offset, isSelecting := true)
      else st
  }

  /** `WM_MOUSEMOVE` while selecting: the cursor and the selection's moving
      end follow the mouse over bytes of the document. */
  function MouseMove(st: DocumentState, x: int, y: int): (r: DocumentState)
    ensures var o := if y > ROW_HEIGHT then OffsetAt(x, y, st.scrollPosition, LEFT_INSET) else -1;
      if st.isSelecting && |st.fileData| > 0 && y > ROW_HEIGHT && 0 <= o < |st.fileData| then
        r == st.(cursorPosition := o, selectionEnd := o)
      else r == st
  {
    if !st.isSelecting || |st.fileData| == 0 || y <= ROW_HEIGHT then st
    else
      var offset := OffsetAt(x, y, st.scrollPosition, LEFT_INSET);
      if 0 <= offset < |st.fileData| then st.(cursorPosition := offset, selectionEnd := offset)
      else st
  }

  /** `WM_LBUTTONUP`: ends the drag, keeping the window's invariant. */
  function LeftButtonUp(st: DocumentState): (r: DocumentState)
    ensures !r.isSelecting
    ensures WellFormed(st) ==> WellFormed(r)
    ensures r.cursorPosition == st.cursorPosition && r.selectionStart == st.selectionStart
      && r.selectionEnd == st.selectionEnd && r.annotations == st.annotations
  {
    st.(isSelecting := false)
  }

  /** After the button is released, moving the mouse changes nothing until
      the next click, and the release itself keeps cursor and selection. */
  lemma ReleaseEndsDrag(st: DocumentState, x: int, y: int)
    ensures var up := LeftButtonUp(st);
      && MouseMove(up, x, y) == up
      && up.(isSelecting := st.isSelecting) == st
  {
  }

  /** `WM_RBUTTONDOWN`: a right click on a byte moves only the cursor, which
      the context menu then looks up. */
  function RightButtonDown(st: DocumentState, x: int, y: int): (r: DocumentState)
    ensures var o := if y > ROW_HEIGHT then OffsetAt(x, y, st.scrollPosition, RIGHT_INSET) else -1;
      if |st.fileData| > 0 && y > ROW_HEIGHT && 0 <= o < |st.fileData| then r == st.(cursorPosition := o)
      else r == st
  {
    if |st.fileData| == 0 || y <= ROW_HEIGHT then st
    else
      var offset := OffsetAt(x, y, st.scrollPosition, RIGHT_INSET);
      if 0 <= offset < |st.fileData| then st.(cursorPosition := offset) else st
  }

  /** The mouse handlers keep the cursor and the selection on bytes of the
      document, so they preserve the window invariant. */
  lemma MouseKeepsWellFormed(st: DocumentState, x: int, y: int)
    requires WellFormed(st)
    ensures WellFormed(LeftButtonDown(st, x, y))
    ensures WellFormed(MouseMove(st, x, y))
    ensures WellFormed(RightButtonDown(st, x, y))
  {
  }

  /** After a click and any drags the selection's two ends are bytes of the
      document, and the anchored end is where the click landed. */
  lemma DragKeepsAnchor(st: DocumentState, x0: int, y0: int, x1: int, y1: int)
    requires LeftButtonDown(st, x0, y0) != st
    ensures var down := LeftButtonDown(st, x0, y0);
      var moved := MouseMove(down, x1, y1);
      && moved.selectionStart == down.selectionStart == down.cursorPosition
      && 0 <= moved.selectionStart < |st.fileData|
      && 0 <= moved.selectionEnd < |st.fileData|
      && moved.isSelecting
  {
  }
}

=== FILE: input_dialog.dfy ===
/** The label-and-format input dialog, reduced to what it computes: the
    combo-box index for a given format name, the format name for a selected
    index, the label buffer filled on OK, and the clearing of both buffers
    on any other result. */
module InputDialog {
  import opened Bytes

  /** The format names the combo box lists, in list order. */
  const OfferedFormats: seq<Text> := ["hex", "int", "float", "ascii"]

  /** Capacity of the label buffer, terminating zero included. */
  const LABEL_BUFFER_SIZE: nat := 256

  /** The combo-box selection made when the dialog opens with `format`:
      an empty format selects "hex" (index 0), one of the four offered names
      selects its index, and any other name selects nothing (-1). */
  function InitialSelection(format: Text): (r: int)
    ensures -1 <= r < |OfferedFormats|
    ensures format == "" ==> r == 0
    ensures format != "" ==> (r >= 0 <==> format in OfferedFormats)
    ensures r >= 0 && format != "" ==> OfferedFormats[r] == format
  {
    if format == "" then 0
    else if format == "hex" then 0
    else if format == "int" then 1
    else if format == "float" then 2
    else if format == "ascii" then 3
    else -1
  }

  /** The format copied out on OK for the selected index: the offered name
      for 0..3, "hex" for anything else (including no selection). */
  function SelectedFormat(index: int): (r: Text)
    ensures r in OfferedFormats
    ensures 0 <= index < |OfferedFormats| ==> r == OfferedFormats[index]
    ensures !(0 <= index < |OfferedFormats|) ==> r == "hex"
  {
    if index == 0 then "hex"
    else if index == 1 then "int"
    else if index == 2 then "float"
    else if index == 3 then "ascii"
    else "hex"
  }

  /** The two mappings are inverse on the four offered names and indexes. */
  lemma FormatIndexRoundTrip(format: Text, index: int)
    ensures format in OfferedFormats ==> SelectedFormat(InitialSelection(format)) == format
    ensures 0 <= index < |OfferedFormats| ==> InitialSelection(SelectedFormat(index)) == index
  {
  }

  /** How the user closes the dialog: OK with the edit control's text and the
      combo box's final selection (-1 for none), or any other way. */
  datatype Reply = Confirmed(editText: Text, selection: int) | Dismissed

  /** The reply of a user who presses OK without touching either control. */
  function UntouchedReply(labelText: Text, format: Text): Reply {
    Confirmed(labelText, InitialSelection(format))
  }

  /** The edit control's text as `GetDlgItemText` copies it into a buffer
      of `LABEL_BUFFER_SIZE` characters: at most 255 characters survive. */
  function Truncated(t: Text, capacity: nat): (r: Text)
    requires capacity > 0
    ensures |r| < capacity
    ensures |r| <= |t| && r == t[..|r|]
    ensures |t| < capacity ==> r == t
  {
    if |t| < capacity then t else t[..capacity - 1]
  }

  /** The label and format buffers after the dialog closes with `reply`. */
  datatype Buffers = Buffers(labelBuffer: Text, formatBuffer: Text)

  /** `ShowAnnotationInputDialog`: OK fills the label from the edit control
      and the format from the selection; any other result clears both. */
  function ShowDialog(reply: Reply): (r: Buffers)
    ensures reply.Dismissed? ==> r == Buffers("", "")
    ensures reply.Confirmed? ==> r.formatBuffer in OfferedFormats
    ensures reply.Confirmed? && 0 <= reply.selection < |OfferedFormats| ==> r.formatBuffer == OfferedFormats[reply.selection]
    ensures reply.Confirmed? && !(0 <= reply.selection < |OfferedFormats|) ==> r.formatBuffer == "hex"
    ensures reply.Confirmed? ==> |r.labelBuffer| < LABEL_BUFFER_SIZE && |r.labelBuffer| <= |reply.editText| && r.labelBuffer == reply.editText[..|r.labelBuffer|]
    ensures reply.Confirmed? && |reply.editText| < LABEL_BUFFER_SIZE ==> r.labelBuffer == reply.editText
    ensures reply.Confirmed? && |reply.editText| >= LABEL_BUFFER_SIZE ==> |r.labelBuffer| == LABEL_BUFFER_SIZE - 1
  {
    match reply
    case Dismissed => Buffers("", "")
    case Confirmed(text, selection) => Buffers(Truncated(text, LABEL_BUFFER_SIZE), SelectedFormat(selection))
  }

  /** Only the four offered names ever come out of the dialog, so "double"
      and "unicode" can never be chosen through it. */
  lemma DialogNeverYieldsDoubleOrUnicode(reply: Reply)
    ensures ShowDialog(reply).formatBuffer != "double"
    ensures ShowDialog(reply).formatBuffer != "unicode"
  {
  }

  /** Confirming without touching the controls keeps a label that fits and a
      format the combo box offers; any other format comes back as "hex". */
  lemma UntouchedDialogKeepsOfferedFormat(labelText: Text, format: Text)
    requires |labelText| < LABEL_BUFFER_SIZE
    ensures ShowDialog(UntouchedReply(labelText, format)).labelBuffer == labelText
    ensures format in OfferedFormats ==> ShowDialog(UntouchedReply(labelText, format)).formatBuffer == format
    ensures format !in OfferedFormats ==> ShowDialog(UntouchedReply(labelText, format)).formatBuffer == "hex"
  {
  }
}

=== FILE: little_endian.dfy ===
/** Little-endian integers over byte sequences: what `memcpy` into an
    integer of the x86 target produces, and what `ofstream::write` of an
    `int` emits. */
module LittleEndian {
  import opened Bytes

  /** 256 to the power `n`. */
  function Pow256(n: nat): (r: nat)
    ensures r > 0
  {
    if n == 0 then 1 else 256 * Pow256(n - 1)
  }

  /** The unsigned value of `s`, least significant byte first. */
  function Unsigned(s: seq<byte>): (r: nat)
    ensures r < Pow256(|s|)
  {
    if |s| == 0 then 0
    else
      var rest := Unsigned(s[1..]);
      assert rest <= Pow256(|s| - 1) - 1;
      assert 256 * rest <= 256 * Pow256(|s| - 1) - 256;
      s[0] + 256 * rest
  }

  /** The two's-complement value of `s` at width `8 * |s|` bits. */
  function Signed(s: seq<byte>): (r: int)
    requires |s| > 0
    ensures var half: int := Pow256(|s|) / 2; -half <= r < half
    ensures r >= 0 ==> r == Unsigned(s)
    ensures r < 0 ==> r == Unsigned(s) - Pow256(|s|)
  {
    PowHalf(|s|);
    var u := Unsigned(s);
    if u >= Pow256(|s|) / 2 then u - Pow256(|s|) else u
  }

  lemma PowHalf(n: nat)
    requires n > 0
    ensures Pow256(n) == 2 * (Pow256(n) / 2)
  {
  }

  /** The `n` little-endian bytes of `x`. */
  function EncodeUnsigned(x: nat, n: nat): (r: seq<byte>)
    requires x < Pow256(n)
    ensures |r| == n
  {
    if n == 0 then []
    else [x % 256] + EncodeUnsigned(x / 256, n - 1)
  }

  lemma {:induction false} DecodeEncodeUnsigned(x: nat, n: nat)
    requires x < Pow256(n)
    ensures Unsigned(EncodeUnsigned(x, n)) == x
  {
    if n > 0 {
      var s := EncodeUnsigned(x, n);
      assert s[1..] == EncodeUnsigned(x / 256, n - 1);
      DecodeEncodeUnsigned(x / 256, n - 1);
    }
  }

  lemma {:induction false} EncodeDecodeUnsigned(s: seq<byte>)
    ensures EncodeUnsigned(Unsigned(s), |s|) == s
  {
    if |s| > 0 {
      var u := Unsigned(s);
      assert u % 256 == s[0];
      assert u / 256 == Unsigned(s[1..]);
      EncodeDecodeUnsigned(s[1..]);
    }
  }

  /** `x` reinterpreted as the `uint32_t` with the same bits: what `std::hex`
      prints for a negative `int`. */
  function AsUnsigned32(x: int32): (r: uint32)
    ensures x >= 0 ==> r == x
    ensures x < 0 ==> r == x + TWO_POW_32
  {
    if x < 0 then x + TWO_POW_32 else x
  }

  /** The four bytes `ofstream::write` emits for an `int`. */
  function EncodeInt32(x: int32): (r: seq<byte>)
    ensures |r| == 4
  {
    EncodeUnsigned(AsUnsigned32(x), 4)
  }

  /** The four bytes `ofstream::write` emits for a `DWORD`. */
  function EncodeUint32(x: uint32): (r: seq<byte>)
    ensures |r| == 4
  {
    EncodeUnsigned(x, 4)
  }

  /** The `int` that `ifstream::read` of four bytes produces. */
  function DecodeInt32(s: seq<byte>): (r: int32)
    requires |s| == 4
    ensures r >= 0 <==> Unsigned(s) < TWO_POW_32 / 2
  {
    Signed(s)
  }

  lemma DecodeEncodeInt32(x: int32)
    ensures DecodeInt32(EncodeInt32(x)) == x
  {
    DecodeEncodeUnsigned(AsUnsigned32(x), 4);
  }

  lemma DecodeEncodeUint32(x: uint32)
    ensures Unsigned(EncodeUint32(x)) == x
  {
    DecodeEncodeUnsigned(x, 4);
  }

  /** The little-endian encoding of -1 at width 4 is four 0xFF bytes. */
  lemma MinusOneBytes()
    ensures EncodeInt32(-1) == [0xFF, 0xFF, 0xFF, 0xFF]
  {
  }
}

=== FILE: numerals.dfy ===
/** Integer-to-text rendering as `std::stringstream` performs it: decimal
    (`ss << value`), lowercase hexadecimal without padding (`std::hex`), and
    the two-digit uppercase form of `std::uppercase << std::setw(2) <<
    std::setfill('0')`. Each rendering has a reader that recovers the value. */
module Numerals {
  import opened Bytes

  /** The digit character for `d`, lowercase above 9. */
  function LowerDigit(d: nat): (c: Char8)
    requires d < 16
  {
    if d < 10 then ('0' as int + d) as char else ('a' as int + d - 10) as char
  }

  /** The digit character for `d`, uppercase above 9. */
  function UpperDigit(d: nat): (c: Char8)
    requires d < 16
  {
    if d < 10 then ('0' as int + d) as char else ('A' as int + d - 10) as char
  }

  /** The value of a digit character of either case, or -1 when `c` is not one. */
  function DigitValue(c: char): (r: int)
    ensures -1 <= r < 16
  {
    if '0' <= c <= '9' then c as int - '0' as int
    else if 'a' <= c <= 'f' then c as int - 'a' as int + 10
    else if 'A' <= c <= 'F' then c as int - 'A' as int + 10
    else -1
  }

  lemma DigitCharsInvert(d: nat)
    requires d < 16
    ensures DigitValue(LowerDigit(d)) == d
    ensures DigitValue(UpperDigit(d)) == d
  {
  }

  /** True when every character of `t` is a digit below `base`. */
  predicate AllDigits(t: Text, base: nat) {
    forall i :: 0 <= i < |t| ==> 0 <= DigitValue(t[i]) < base
  }

  /** The shortest positional rendering of `n` in `base`, most significant
      digit first, lowercase letters; "0" for zero. */
  function Positional(n: nat, base: nat): (r: Text)
    requires 2 <= base <= 16
    ensures 1 <= |r|
    ensures AllDigits(r, base)
    ensures n > 0 ==> r[0] != '0'
    decreases n
  {
    var d := n % base;
    DigitCharsInvert(d);
    if n < base then [LowerDigit(n)]
    else
      DivisionShrinks(n, base);
      var prefix := Positional(n / base, base);
      AppendDigit(prefix, LowerDigit(d), base);
      prefix + [LowerDigit(d)]
  }

  lemma DivisionShrinks(n: nat, base: nat)
    requires 2 <= base <= n
    ensures 1 <= n / base < n
    ensures n == n / base * base + n % base
  {
  }

  lemma AppendDigit(t: Text, c: Char8, base: nat)
    requires AllDigits(t, base)
    requires 0 <= DigitValue(c) < base
    ensures AllDigits(t + [c], base)
    ensures 1 <= |t| ==> (t + [c])[0] == t[0]
  {
    var u := t + [c];
    forall i | 0 <= i < |u|
      ensures 0 <= DigitValue(u[i]) < base
    {
      if i < |t| { assert u[i] == t[i]; }
    }
  }

  lemma DigitsPrefix(t: Text, base: nat, k: nat)
    requires AllDigits(t, base)
    requires k <= |t|
    ensures AllDigits(t[..k], base)
  {
    var p := t[..k];
    forall i | 0 <= i < |p|
      ensures 0 <= DigitValue(p[i]) < base
    {
      assert p[i] == t[i];
    }
  }

  /** The value of a string of digits in `base`, most significant first. */
  function PositionalValue(t: Text, base: nat): (r: nat)
    requires AllDigits(t, base)
  {
    if |t| == 0 then 0
    else
      DigitsPrefix(t, base, |t| - 1);
      PositionalValue(t[..|t| - 1], base) * base + DigitValue(t[|t| - 1])
  }

  lemma {:induction false} PositionalRoundTrip(n: nat, base: nat)
    requires 2 <= base <= 16
    ensures PositionalValue(Positional(n, base), base) == n
    decreases n
  {
    var r := Positional(n, base);
    var d := n % base;
    DigitCharsInvert(d);
    if n < base {
      assert r == [LowerDigit(n)];
      assert r[..|r| - 1] == [];
    } else {
      DivisionShrinks(n, base);
      var prefix := Positional(n / base, base);
      assert r == prefix + [LowerDigit(d)];
      assert r[..|r| - 1] == prefix;
      PositionalRoundTrip(n / base, base);
      assert PositionalValue(r, base) == n / base * base + d;
    }
  }

  /** `ss << x` for any integer type: optional minus sign, then decimal digits. */
  function DecimalText(x: int): (r: Text)
  {
    if x < 0 then "-" + Positional(-x, 10) else Positional(x, 10)
  }

  /** Reads back a decimal rendering; None when `t` is not one. */
  function ParseDecimal(t: Text): (r: Option<int>)
  {
    if |t| > 1 && t[0] == '-' && AllDigits(t[1..], 10) then Some(0 - PositionalValue(t[1..], 10))
    else if |t| > 0 && AllDigits(t, 10) then Some(PositionalValue(t, 10))
    else None
  }

  /** Decimal rendering is invertible, so distinct values print differently. */
  lemma DecimalRoundTrip(x: int)
    ensures ParseDecimal(DecimalText(x)) == Some(x)
  {
    if x < 0 {
      var digits := Positional(-x, 10);
      assert DecimalText(x)[1..] == digits;
      PositionalRoundTrip(-x, 10);
    } else {
      PositionalRoundTrip(x, 10);
      assert DigitValue('-') == -1;
    }
  }

  /** `ss << std::hex << x` for a non-negative value: lowercase, no prefix, no padding. */
  function LowerHex(x: nat): (r: Text)
    ensures 1 <= |r|
  {
    Positional(x, 16)
  }

  /** Reads back a lowercase hexadecimal rendering; None when `t` is not one. */
  function ParseHex(t: Text): (r: Option<nat>)
  {
    if |t| > 0 && AllDigits(t, 16) then Some(PositionalValue(t, 16)) else None
  }

  lemma HexRoundTrip(x: nat)
    ensures ParseHex(LowerHex(x)) == Some(x)
  {
    PositionalRoundTrip(x, 16);
  }

  /** A byte as two uppercase hexadecimal digits, zero-padded. */
  function HexPair(b: byte): (r: Text)
    ensures |r| == 2
    ensures DigitValue(r[0]) * 16 + DigitValue(r[1]) == b
    ensures forall i :: 0 <= i < 2 ==> '0' <= r[i] <= '9' || 'A' <= r[i] <= 'F'
  {
    DigitCharsInvert(b / 16);
    DigitCharsInvert(b % 16);
    [UpperDigit(b / 16), UpperDigit(b % 16)]
  }
}

=== FILE: readout.dfy ===
/** The data-interpreter grid: thirteen primitive read-outs of the bytes at
    the selected offset (`FormatDataAtOffset`), their row names
    (`GetDataTypeName`) and the grid refresh (`UpdateGridView`). */
module Readout {
  import opened Bytes
  import opened LittleEndian
  import opened Numerals
  import opened SpanFormat

  /** The primitive types of the grid, in row order. */
  datatype DataType =
    | DT_BYTE
    | DT_UBYTE
    | DT_SHORT
    | DT_USHORT
    | DT_INT
    | DT_UINT
    | DT_FLOAT
    | DT_DOUBLE
    | DT_STRING
    | DT_UNICODE_STRING
    | DT_TIME_T
    | DT_TIME64_T
    | DT_OLETIME

  /** The enumeration's sentinel: the number of grid rows. */
  const DT_COUNT: nat := 13

  /** The enumerator value of a type. */
  function Ordinal(t: DataType): (r: nat)
    ensures r < DT_COUNT
  {
    match t
    case DT_BYTE => 0
    case DT_UBYTE => 1
    case DT_SHORT => 2
    case DT_USHORT => 3
    case DT_INT => 4
    case DT_UINT => 5
    case DT_FLOAT => 6
    case DT_DOUBLE => 7
    case DT_STRING => 8
    case DT_UNICODE_STRING => 9
    case DT_TIME_T => 10
    case DT_TIME64_T => 11
    case DT_OLETIME => 12
  }

  /** The type with enumerator value `i`, as the cast `(DataType)i` yields it. */
  function FromOrdinal(i: int): (r: Option<DataType>)
    ensures r.Some? <==> 0 <= i < DT_COUNT
    ensures r.Some? ==> Ordinal(r.value) == i
  {
    if i == 0 then Some(DT_BYTE)
    else if i == 1 then Some(DT_UBYTE)
    else if i == 2 then Some(DT_SHORT)
    else if i == 3 then Some(DT_USHORT)
    else if i == 4 then Some(DT_INT)
    else if i == 5 then Some(DT_UINT)
    else if i == 6 then Some(DT_FLOAT)
    else if i == 7 then Some(DT_DOUBLE)
    else if i == 8 then Some(DT_STRING)
    else if i == 9 then Some(DT_UNICODE_STRING)
    else if i == 10 then Some(DT_TIME_T)
    else if i == 11 then Some(DT_TIME64_T)
    else if i == 12 then Some(DT_OLETIME)
    else None
  }

  /** The thirteen members are exactly the enumerator values 0..12: every
      member has its own value and every value below the sentinel names one. */
  lemma OrdinalRoundTrip(t: DataType)
    ensures FromOrdinal(Ordinal(t)) == Some(t)
  {
  }

  /** `GetDataTypeName` for an enumerator value; "Unknown" outside the enumeration. */
  function DataTypeName(i: int): (r: Text)
    ensures |r| > 0
    ensures r == "Unknown" <==> !(0 <= i < DT_COUNT)
  {
    match FromOrdinal(i)
    case None => "Unknown"
    case Some(t) =>
      match t
      case DT_BYTE => "Byte (8-bit)"
      case DT_UBYTE => "Unsigned Byte"
      case DT_SHORT => "Short (16-bit)"
      case DT_USHORT => "Unsigned Short"
      case DT_INT => "Int (32-bit)"
      case DT_UINT => "Unsigned Int"
      case DT_FLOAT => "Float"
      case DT_DOUBLE => "Double"
      case DT_STRING => "ASCII String"
      case DT_UNICODE_STRING => "Unicode String"
      case DT_TIME_T => "time_t"
      case DT_TIME64_T => "time64_t"
      case DT_OLETIME => "OLE Time"
  }

  /** The grid's row names: "Unknown" exactly outside 0..12, and no two rows
      share a name. */
  lemma DataTypeNamesDistinct(i: int, j: int)
    ensures DataTypeName(i) == "Unknown" <==> !(0 <= i < DT_COUNT)
    ensures 0 <= i < DT_COUNT && 0 <= j < DT_COUNT && i != j ==> DataTypeName(i) != DataTypeName(j)
  {
  }

  const NOT_ENOUGH_DATA: Text := "Not enough data"

  /** Maximum characters of the DT_STRING read-out. */
  const MAX_STRING_LENGTH: nat := 32

  /** Maximum 16-bit units of the DT_UNICODE_STRING read-out. */
  const MAX_WSTRING_LENGTH: nat := 16

  /** The DT_STRING read-out of `s` (the bytes from the offset on): at most
      `limit` bytes, stopping before the first zero byte. */
  function ZeroTerminated(s: seq<byte>, limit: nat): (r: Text)
    ensures |r| <= limit && |r| <= |s|
    ensures forall i :: 0 <= i < |r| ==> s[i] != 0 && r[i] == DisplayChar(s[i])
    ensures |r| == limit || |r| == |s| || s[|r|] == 0
  {
    if limit == 0 || |s| == 0 || s[0] == 0 then []
    else [DisplayChar(s[0])] + ZeroTerminated(s[1..], limit - 1)
  }

  /** The little-endian 16-bit unit at byte index 2 * i. */
  function Unit16(s: seq<byte>, i: nat): (u: nat)
    requires 2 * i + 1 < |s|
    ensures u < 0x1_0000
  {
    Unsigned(s[2 * i..2 * i + 2])
  }

  /** The DT_UNICODE_STRING read-out of `s` (the bytes from the offset on)
      from unit `i` on: at most `limit` more 16-bit units, each read only
      while both of its bytes exist, stopping before a zero unit. */
  function ZeroTerminatedWide(s: seq<byte>, i: nat, limit: nat): (r: Text)
    ensures |r| <= limit
    ensures forall k :: 0 <= k < |r| ==> WideCharAt(s, i + k, r[k])
    ensures |r| == limit || 2 * (i + |r|) + 1 >= |s| || Unit16(s, i + |r|) == 0
    decreases limit
  {
    if limit == 0 || 2 * i + 1 >= |s| || Unit16(s, i) == 0 then []
    else
      var rest := ZeroTerminatedWide(s, i + 1, limit - 1);
      var r := [DisplayChar(Unit16(s, i))] + rest;
      assert forall k :: 1 <= k < |r| ==> r[k] == rest[k - 1] && i + k == (i + 1) + (k - 1);
      r
  }

  /** Unit `j` of `s` exists, is not zero, and is shown as `c`. */
  predicate WideCharAt(s: seq<byte>, j: nat, c: char) {
    2 * j + 1 < |s| && Unit16(s, j) != 0 && c == DisplayChar(Unit16(s, j))
  }

  /** "<decimal> (0x<lowercase hex>)", the integer read-out layout. */
  function IntegerReadout(decimal: int, hex: nat): Text {
    DecimalText(decimal) + " (0x" + LowerHex(hex) + ")"
  }

  /** Width in bytes of the integer types; 0 for the others. */
  function IntegerWidth(t: DataType): nat {
    match t
    case DT_BYTE => 1
    case DT_UBYTE => 1
    case DT_SHORT => 2
    case DT_USHORT => 2
    case DT_INT => 4
    case DT_UINT => 4
    case _ => 0
  }

  /** True for the types whose read-out is computed to text here. */
  predicate IsInteger(t: DataType) {
    IntegerWidth(t) > 0
  }

  /** The decimal part of an integer read-out of the `IntegerWidth(t)`
      bytes `s`: the two's-complement value for the signed types, the plain
      value for the unsigned ones. */
  function IntegerDecimal(t: DataType, s: seq<byte>): (v: int)
    requires IsInteger(t) && |s| == IntegerWidth(t)
    ensures t in {DT_BYTE, DT_SHORT, DT_INT} ==> v == Signed(s)
    ensures t in {DT_UBYTE, DT_USHORT, DT_UINT} ==> v == Unsigned(s)
  {
    if t in {DT_BYTE, DT_SHORT, DT_INT} then Signed(s) else Unsigned(s)
  }

  /** The hex part of an integer read-out: DT_BYTE shows the unsigned byte,
      DT_SHORT and DT_INT the bits of the value sign-extended to a 32-bit
      `int`, the unsigned types their value. */
  function IntegerHex(t: DataType, s: seq<byte>): (h: nat)
    requires IsInteger(t) && |s| == IntegerWidth(t)
    ensures h < TWO_POW_32
    ensures IntegerDecimal(t, s) >= 0 ==> h == IntegerDecimal(t, s)
    ensures t in {DT_SHORT, DT_INT} && IntegerDecimal(t, s) < 0 ==> h == IntegerDecimal(t, s) + TWO_POW_32
    ensures t == DT_BYTE ==> h == Unsigned(s)
  {
    assert Pow256(1) == 256 && Pow256(2) == 0x1_0000 && Pow256(4) == TWO_POW_32;
    if t in {DT_SHORT, DT_INT} then AsUnsigned32(Signed(s)) else Unsigned(s)
  }

  /** The integer read-out of the `IntegerWidth(t)` bytes `s`. */
  function IntegerText(t: DataType, s: seq<byte>): Text
    requires IsInteger(t) && |s| == IntegerWidth(t)
  {
    IntegerReadout(IntegerDecimal(t, s), IntegerHex(t, s))
  }

  /** The bytes the DT_TIME_T read-out converts, as the evidently intended
      reading of the 4-byte guard: exactly four bytes, only when four remain. */
  function TimeTWindow(size: nat, offset: nat): (r: Option<(nat, nat)>)
    requires offset <= size
    ensures r.Some? <==> size - offset >= 4
    ensures r.Some? ==> r.value.0 == offset && r.value.0 <= r.value.1 <= size && r.value.1 - r.value.0 == 4
  {
    if size - offset >= 4 then Some((offset, offset + 4)) else None
  }

  /** Size of the program's `time_t`: 64-bit under the platform's default. */
  const SIZEOF_TIME_T: nat := 8

  /** The bytes the DT_TIME_T read-out copies as the program is written: the
      guard asks for 4 remaining bytes, the copy takes `sizeof(time_t)`. */
  function TimeTWindowAsWritten(size: nat, offset: nat): (r: Option<(nat, nat)>)
    requires offset <= size
    ensures r.Some? <==> size - offset >= 4
  {
    if size - offset >= 4 then Some((offset, offset + SIZEOF_TIME_T)) else None
  }

  /** The guard lets a 4-byte buffer through, and the copy then reads
      bytes 4..7, past its end. */
  lemma TimeTGuardAdmitsOverread()
    ensures TimeTWindowAsWritten(4, 0) == Some((0, 8))
    ensures TimeTWindowAsWritten(4, 0).value.1 > 4
    ensures TimeTWindow(4, 0) == Some((0, 4))
  {
  }

  /** The read-out before the "Not enough data" substitution. */
  function RawReadout(data: seq<byte>, offset: nat, t: DataType): (r: Value)
    requires offset <= |data|
    ensures !r.Undefined?
    ensures r.Foreign? ==> offset + |r.raw| <= |data| && r.raw == data[offset..offset + |r.raw|]
    ensures IsInteger(t) ==> r.Shown?
  {
    var remaining := |data| - offset;
    var rest := data[offset..];
    match t
    case DT_FLOAT => if remaining >= 4 then Foreign(FixedFloat32(6), rest[..4]) else Shown("")
    case DT_DOUBLE => if remaining >= 8 then Foreign(FixedFloat64(10), rest[..8]) else Shown("")
    case DT_STRING => Shown(ZeroTerminated(rest, MAX_STRING_LENGTH))
    case DT_UNICODE_STRING => Shown(ZeroTerminatedWide(rest, 0, MAX_WSTRING_LENGTH))
    case DT_TIME_T =>
      (match TimeTWindow(|data|, offset)
       case Some(w) => Foreign(UtcTime32, data[w.0..w.1])
       case None => Shown(""))
    case DT_TIME64_T => if remaining >= 8 then Foreign(UtcTime64, rest[..8]) else Shown("")
    case DT_OLETIME => if remaining >= 8 then Foreign(OleDate, rest[..8]) else Shown("")
    case _ =>
      if remaining >= IntegerWidth(t) then Shown(IntegerText(t, rest[..IntegerWidth(t)])) else Shown("")
  }

  /** `FormatDataAtOffset(data, offset, type)`. */
  function FormatDataAtOffset(data: seq<byte>, offset: nat, t: DataType): (r: Value)
    requires offset <= |data|
    ensures r != Shown("")
  {
    var raw := RawReadout(data, offset, t);
    if raw == Shown("") then Shown(NOT_ENOUGH_DATA) else raw
  }

  /** An integer read-out appears exactly when the type's width of bytes
      remains, and is then "<decimal> (0x<hex>)" of the little-endian value of
      those bytes; its decimal part reads back as that value. */
  lemma IntegerReadoutGuard(data: seq<byte>, offset: nat, t: DataType)
    requires offset <= |data| && IsInteger(t)
    ensures var w := IntegerWidth(t);
      var r := FormatDataAtOffset(data, offset, t);
      && (|data| - offset < w ==> r == Shown(NOT_ENOUGH_DATA))
      && (|data| - offset >= w ==>
            var s := data[offset..offset + w];
            && r == Shown(IntegerReadout(IntegerDecimal(t, s), IntegerHex(t, s)))
            && ParseDecimal(r.text[..|DecimalText(IntegerDecimal(t, s))|]) == Some(IntegerDecimal(t, s)))
  {
    var w := IntegerWidth(t);
    IntegerRawReadout(data, offset, t);
    if |data| - offset >= w {
      var s := data[offset..offset + w];
      DecimalPartReadsBack(IntegerDecimal(t, s), IntegerHex(t, s));
    }
  }

  /** The decimal part at the head of an integer read-out reads back as the
      value, and the read-out is never empty. */
  lemma DecimalPartReadsBack(d: int, hex: nat)
    ensures var text := IntegerReadout(d, hex);
      |text| > 0 && ParseDecimal(text[..|DecimalText(d)|]) == Some(d)
  {
    DecimalRoundTrip(d);
    var text := IntegerReadout(d, hex);
    assert text[..|DecimalText(d)|] == DecimalText(d);
  }

  /** The integer types share one arm of the read-out. */
  lemma IntegerRawReadout(data: seq<byte>, offset: nat, t: DataType)
    requires offset <= |data| && IsInteger(t)
    ensures var w := IntegerWidth(t);
      RawReadout(data, offset, t)
        == if |data| - offset >= w then Shown(IntegerText(t, data[offset..offset + w])) else Shown("")
  {
    var w := IntegerWidth(t);
    if |data| - offset >= w {
      assert data[offset..][..w] == data[offset..offset + w];
    }
  }

  lemma LowerHexAllF()
    ensures LowerHex(0xFF) == "ff"
    ensures LowerHex(0xFFFF_FFFF) == "ffffffff"
  {
    assert Positional(0xF, 16) == "f";
    assert Positional(0xFF, 16) == "ff";
    assert Positional(0xFFF, 16) == "fff";
    assert Positional(0xFFFF, 16) == "ffff";
    assert Positional(0xF_FFFF, 16) == "fffff";
    assert Positional(0xFF_FFFF, 16) == "ffffff";
    assert Positional(0xFFF_FFFF, 16) == "fffffff";
    assert Positional(0xFFFF_FFFF, 16) == "ffffffff";
  }

  /** DT_SHORT prints the hex of the sign-extended `int`: 0xFFFF reads as
      "-1 (0xffffffff)", while DT_BYTE shows the unsigned byte. */
  lemma SignExtendedHexExamples()
    ensures FormatDataAtOffset([0xFF, 0xFF], 0, DT_SHORT) == Shown("-1 (0xffffffff)")
    ensures FormatDataAtOffset([0xFF], 0, DT_BYTE) == Shown("-1 (0xff)")
  {
    LowerHexAllF();
    assert DecimalText(-1) == "-1";
    var s := [0xFF, 0xFF];
    assert s[0..][..2] == s;
    assert Unsigned(s) == 0xFFFF;
    assert IntegerDecimal(DT_SHORT, s) == -1;
    assert IntegerHex(DT_SHORT, s) == 0xFFFF_FFFF;
    assert IntegerText(DT_SHORT, s) == "-1 (0xffffffff)";
    var b := [0xFF];
    assert b[0..][..1] == b;
    assert IntegerDecimal(DT_BYTE, b) == -1;
    assert IntegerHex(DT_BYTE, b) == 0xFF;
    assert IntegerText(DT_BYTE, b) == "-1 (0xff)";
  }

  /** The string read-out never exceeds 32 characters and never reads past
      the buffer; a string that is empty at the offset (a zero byte first, or
      no bytes left) reads "Not enough data". */
  lemma StringReadoutBounds(data: seq<byte>, offset: nat)
    requires offset <= |data|
    ensures var r := FormatDataAtOffset(data, offset, DT_STRING);
      && r.Shown? && |r.text| <= MAX_STRING_LENGTH
      && (offset == |data| || data[offset] == 0 ==> r == Shown(NOT_ENOUGH_DATA))
      && (offset < |data| && data[offset] != 0 ==> r == Shown(ZeroTerminated(data[offset..], MAX_STRING_LENGTH)))
  {
    var rest := data[offset..];
    if |rest| > 0 && rest[0] != 0 {
      assert ZeroTerminated(rest, MAX_STRING_LENGTH) != [];
    }
  }

  /** The wide-string read-out never exceeds 16 characters and reads a unit
      only while both of its bytes exist; a wide string that is empty at the
      offset (a zero unit first, or fewer than two bytes left) reads "Not
      enough data". */
  lemma WideStringReadoutBounds(data: seq<byte>, offset: nat)
    requires offset <= |data|
    ensures var r := FormatDataAtOffset(data, offset, DT_UNICODE_STRING);
      && r.Shown? && |r.text| <= MAX_WSTRING_LENGTH
      && (|data| - offset < 2 || Unit16(data[offset..], 0) == 0 ==> r == Shown(NOT_ENOUGH_DATA))
      && (|data| - offset >= 2 && Unit16(data[offset..], 0) != 0 ==> r == Shown(ZeroTerminatedWide(data[offset..], 0, MAX_WSTRING_LENGTH)))
  {
    var rest := data[offset..];
    assert |NOT_ENOUGH_DATA| <= MAX_WSTRING_LENGTH;
    if |rest| >= 2 && Unit16(rest, 0) != 0 {
      assert ZeroTerminatedWide(rest, 0, MAX_WSTRING_LENGTH) != [];
    }
  }

  /** Floating-point and time read-outs hand the bytes their guard checks
      to the foreign printer, and report "Not enough data" when fewer
      remain; the double read-out uses 10 fractional digits, unlike the
      span formatter's 6. DT_TIME_T gets the corrected 4-byte window of
      `TimeTWindow`, not the program's `sizeof(time_t)` copy (see
      `TimeTWindowAsWritten`). */
  lemma ForeignReadoutGuards(data: seq<byte>, offset: nat)
    requires offset <= |data|
    ensures var r := FormatDataAtOffset(data, offset, DT_FLOAT);
      |data| - offset >= 4 ==> r == Foreign(FixedFloat32(6), data[offset..offset + 4])
    ensures var r := FormatDataAtOffset(data, offset, DT_FLOAT);
      |data| - offset < 4 ==> r == Shown(NOT_ENOUGH_DATA)
    ensures var r := FormatDataAtOffset(data, offset, DT_DOUBLE);
      |data| - offset >= 8 ==> r == Foreign(FixedFloat64(10), data[offset..offset + 8])
    ensures var r := FormatDataAtOffset(data, offset, DT_DOUBLE);
      |data| - offset < 8 ==> r == Shown(NOT_ENOUGH_DATA)
    ensures var r := FormatDataAtOffset(data, offset, DT_TIME_T);
      |data| - offset >= 4 ==> r == Foreign(UtcTime32, data[offset..offset + 4])
    ensures var r := FormatDataAtOffset(data, offset, DT_TIME_T);
      |data| - offset < 4 ==> r == Shown(NOT_ENOUGH_DATA)
    ensures forall t :: t in {DT_TIME64_T, DT_OLETIME} ==>
      (FormatDataAtOffset(data, offset, t).Foreign? <==> |data| - offset >= 8)
  {
    assert |data| - offset >= 4 ==> data[offset..][..4] == data[offset..offset + 4];
    assert |data| - offset >= 8 ==> data[offset..][..8] == data[offset..offset + 8];
  }

  /** `UpdateGridView`: nothing for an offset outside the document, else one
      read-out per enumerator value below DT_COUNT, in row order. */
  function ReadoutGrid(data: seq<byte>, offset: int): (r: Option<seq<Value>>)
    ensures r.Some? <==> 0 <= offset < |data|
    ensures r.Some? ==> |r.value| == DT_COUNT
    ensures r.Some? ==> forall t :: r.value[Ordinal(t)] == FormatDataAtOffset(data, offset, t)
  {
    if offset < 0 || offset >= |data| then None
    else
      var grid := seq(DT_COUNT, i requires 0 <= i < DT_COUNT => FormatDataAtOffset(data, offset, FromOrdinal(i).value));
      assert forall t :: grid[Ordinal(t)] == FormatDataAtOffset(data, offset, t) by {
        forall t ensures grid[Ordinal(t)] == FormatDataAtOffset(data, offset, t) {
          OrdinalRoundTrip(t);
        }
      }
      Some(grid)
  }
}

=== FILE: row_projection.dfy ===
/** The row arithmetic of the hex view: how an annotation's inclusive byte
    range [start, end] is cut into one span per 16-byte row, which of those
    rows the window draws at a scroll position, which row carries the label,
    where the outline boxes go in pixels, and which part of the annotation's
    formatted value the ASCII pane shows on each row. */
module RowProjection {
  import opened Bytes
  import opened Document

  const CHAR_WIDTH: int := 12
  const ROW_HEIGHT: int := 32
  const HEX_MARGIN: int := 100
  const HEX_BYTE_SPACING: int := 20
  const ASCII_MARGIN: int := 440
  const ANNOTATION_MARGIN: int := 3

  /** C++ `/` on `int` with a positive divisor: truncates toward zero. */
  function TruncDiv(a: int, b: int): (q: int)
    requires b > 0
    ensures a >= 0 ==> q == a / b
    ensures a < 0 ==> q == 0 - (0 - a) / b
    ensures q * b <= a || a < 0
  {
    if a >= 0 then a / b else 0 - (0 - a) / b
  }

  /** The last row `DrawAnnotations` draws: the scroll position plus the
      number of whole rows on a page. */
  function LastVisibleRow(scroll: int, bytesPerPage: int): int {
    scroll + TruncDiv(bytesPerPage, BYTES_PER_ROW)
  }

  /** How the outline of one row is drawn: a full rounded box when the
      annotation fits on one row, otherwise an open-right box on its first
      row, top and bottom lines on middle rows, an open-left box on its last. */
  datatype RowKind = Single | First | Middle | Last

  /** The part of an annotation on one row: its columns and outline shape,
      and whether the label is drawn above it. */
  datatype RowSpan = RowSpan(row: int, startCol: int, endCol: int, kind: RowKind, hasLabel: bool)

  /** Row `row` of the annotation over [start, end] with the view scrolled
      to `scroll`. The span holds exactly the annotation's bytes on that row:
      from the later of `start` and the row's first byte, to the earlier of
      `end` and the row's last byte. */
  function RowOf(start: nat, end: nat, row: int, scroll: int): (r: RowSpan)
    requires start / BYTES_PER_ROW <= row <= end / BYTES_PER_ROW
    ensures r.row == row
    ensures 0 <= r.startCol < BYTES_PER_ROW && 0 <= r.endCol < BYTES_PER_ROW
    ensures row * BYTES_PER_ROW + r.startCol == Max(start, row * BYTES_PER_ROW)
    ensures row * BYTES_PER_ROW + r.endCol == Min(end, row * BYTES_PER_ROW + BYTES_PER_ROW - 1)
    ensures r.kind == Single <==> start / BYTES_PER_ROW == end / BYTES_PER_ROW
    ensures r.kind == First <==> start / BYTES_PER_ROW < end / BYTES_PER_ROW && row == start / BYTES_PER_ROW
    ensures r.kind == Last <==> start / BYTES_PER_ROW < end / BYTES_PER_ROW && row == end / BYTES_PER_ROW
  {
    var startRow := start / BYTES_PER_ROW;
    var endRow := end / BYTES_PER_ROW;
    var startCol := if row == startRow then start % BYTES_PER_ROW else 0;
    var endCol := if row == endRow then end % BYTES_PER_ROW else BYTES_PER_ROW - 1;
    var kind :=
      if startRow != endRow then
        if row == startRow then First else if row < endRow then Middle else Last
      else Single;
    RowSpan(row, startCol, endCol, kind, row == startRow || (startRow < scroll && row == scroll))
  }

  /** The rows the loop `for (row = from; row <= endRow; row++)` draws, those
      outside [scroll, lastVisible] being skipped. */
  function RowsFrom(start: nat, end: nat, from: int, scroll: int, lastVisible: int): (r: seq<RowSpan>)
    requires start / BYTES_PER_ROW <= from
    ensures forall i :: 0 <= i < |r| ==>
      && from <= r[i].row <= end / BYTES_PER_ROW && scroll <= r[i].row <= lastVisible
      && r[i] == RowOf(start, end, r[i].row, scroll)
    ensures forall i, j :: 0 <= i < j < |r| ==> r[i].row < r[j].row
    ensures forall k :: from <= k <= end / BYTES_PER_ROW && scroll <= k <= lastVisible ==> HasRow(r, k)
    decreases end / BYTES_PER_ROW - from
  {
    if from > end / BYTES_PER_ROW then []
    else
      var rest := RowsFrom(start, end, from + 1, scroll, lastVisible);
      if from < scroll || from > lastVisible then rest
      else
        var r := [RowOf(start, end, from, scroll)] + rest;
        assert forall i :: 1 <= i < |r| ==> r[i] == rest[i - 1];
        forall k | from < k <= end / BYTES_PER_ROW && scroll <= k <= lastVisible
          ensures HasRow(r, k)
        {
          PrependKeepsRow(r[0], rest, k);
        }
        assert r[0].row == from;
        r
  }

  /** True when one of the spans is on row `k`. */
  predicate HasRow(rows: seq<RowSpan>, k: int) {
    exists i :: 0 <= i < |rows| && rows[i].row == k
  }

  lemma PrependKeepsRow(first: RowSpan, rows: seq<RowSpan>, k: int)
    requires HasRow(rows, k)
    ensures HasRow([first] + rows, k)
  {
    var i :| 0 <= i < |rows| && rows[i].row == k;
    assert ([first] + rows)[i + 1].row == k;
  }

  /** The rows of one annotation `DrawAnnotations` draws: none when the
      annotation lies wholly above or below the page, else every row of it
      inside [scroll, scroll + bytesPerPage / 16]. */
  function DrawnRows(start: nat, end: nat, scroll: int, bytesPerPage: int): (r: seq<RowSpan>)
    ensures forall i :: 0 <= i < |r| ==>
      && start / BYTES_PER_ROW <= r[i].row <= end / BYTES_PER_ROW
      && scroll <= r[i].row <= LastVisibleRow(scroll, bytesPerPage)
      && r[i] == RowOf(start, end, r[i].row, scroll)
    ensures forall i, j :: 0 <= i < j < |r| ==> r[i].row < r[j].row
    ensures forall k :: (start / BYTES_PER_ROW <= k <= end / BYTES_PER_ROW
      && scroll <= k <= LastVisibleRow(scroll, bytesPerPage)) ==> HasRow(r, k)
  {
    var last := LastVisibleRow(scroll, bytesPerPage);
    if end / BYTES_PER_ROW < scroll || start / BYTES_PER_ROW > last then []
    else RowsFrom(start, end, start / BYTES_PER_ROW, scroll, last)
  }

  /** The drawn rows are exactly the annotation's rows that fall on the
      page, in ascending order, each with columns inside the row. */
  lemma DrawnRowsAreVisibleRows(start: nat, end: nat, scroll: int, bytesPerPage: int)
    ensures var rows := DrawnRows(start, end, scroll, bytesPerPage);
      var last := LastVisibleRow(scroll, bytesPerPage);
      && (forall i :: 0 <= i < |rows| ==>
            && start / BYTES_PER_ROW <= rows[i].row <= end / BYTES_PER_ROW
            && scroll <= rows[i].row <= last
            && 0 <= rows[i].startCol < BYTES_PER_ROW && 0 <= rows[i].endCol < BYTES_PER_ROW
            && (start <= end ==> rows[i].startCol <= rows[i].endCol))
      && (forall i, j :: 0 <= i < j < |rows| ==> rows[i].row < rows[j].row)
      && (forall k :: start / BYTES_PER_ROW <= k <= end / BYTES_PER_ROW && scroll <= k <= last ==> HasRow(rows, k))
  {
    var rows := DrawnRows(start, end, scroll, bytesPerPage);
    forall i | 0 <= i < |rows| && start <= end
      ensures rows[i].startCol <= rows[i].endCol
    {
      var row := rows[i].row;
      assert row * BYTES_PER_ROW + rows[i].startCol == Max(start, row * BYTES_PER_ROW);
      assert row * BYTES_PER_ROW + rows[i].endCol == Min(end, row * BYTES_PER_ROW + BYTES_PER_ROW - 1);
    }
  }

  /** A row of the outline is single exactly when the annotation occupies one
      row; otherwise it is exactly one of first, middle and last, in that
      order down the rows. */
  lemma RowKindsClassify(start: nat, end: nat, row: int, scroll: int)
    requires start / BYTES_PER_ROW <= row <= end / BYTES_PER_ROW
    ensures var k := RowOf(start, end, row, scroll).kind;
      && (k == Single <==> start / BYTES_PER_ROW == end / BYTES_PER_ROW)
      && (k == Middle <==> start / BYTES_PER_ROW < row < end / BYTES_PER_ROW)
  {
  }

  /** The label is drawn exactly once: on the annotation's first row when
      that row is on the page, otherwise on the top row of the page. A page
      shows some row of the annotation exactly when the two row ranges meet. */
  lemma LabelOnExactlyOneRow(start: nat, end: nat, scroll: int, bytesPerPage: int)
    requires start <= end
    ensures var rows := DrawnRows(start, end, scroll, bytesPerPage);
      var last := LastVisibleRow(scroll, bytesPerPage);
      var labelRow := Max(start / BYTES_PER_ROW, scroll);
      && (|rows| > 0 <==> labelRow <= Min(end / BYTES_PER_ROW, last))
      && (forall i :: 0 <= i < |rows| ==> (rows[i].hasLabel <==> rows[i].row == labelRow))
      && (|rows| > 0 ==> exists i :: 0 <= i < |rows| && rows[i].hasLabel)
  {
    var rows := DrawnRows(start, end, scroll, bytesPerPage);
    var last := LastVisibleRow(scroll, bytesPerPage);
    var labelRow := Max(start / BYTES_PER_ROW, scroll);
    DrawnRowsAreVisibleRows(start, end, scroll, bytesPerPage);
    assert start / BYTES_PER_ROW <= end / BYTES_PER_ROW;
    if |rows| > 0 {
      assert labelRow <= rows[0].row <= Min(end / BYTES_PER_ROW, last);
    }
    if labelRow <= Min(end / BYTES_PER_ROW, last) {
      assert HasRow(rows, labelRow);
      var i :| 0 <= i < |rows| && rows[i].row == labelRow;
      assert rows[i].hasLabel;
    }
  }

  /** Every row of the annotation, as drawn when the whole of it is on the page. */
  function AllRows(start: nat, end: nat): seq<RowSpan> {
    RowsFrom(start, end, start / BYTES_PER_ROW, start / BYTES_PER_ROW, end / BYTES_PER_ROW)
  }

  /** Number of bytes the spans cover. */
  function Width(rows: seq<RowSpan>): int {
    if |rows| == 0 then 0 else rows[0].endCol - rows[0].startCol + 1 + Width(rows[1..])
  }

  /** The spans from row `from` on cover the bytes from the later of `start`
      and that row's first byte, to `end`. */
  lemma {:induction false} WidthFrom(start: nat, end: nat, from: int)
    requires start <= end
    requires start / BYTES_PER_ROW <= from <= end / BYTES_PER_ROW + 1
    ensures var rows := RowsFrom(start, end, from, start / BYTES_PER_ROW, end / BYTES_PER_ROW);
      Width(rows) == if from > end / BYTES_PER_ROW then 0 else end - Max(start, from * BYTES_PER_ROW) + 1
    decreases end / BYTES_PER_ROW - from
  {
    if from <= end / BYTES_PER_ROW {
      var rows := RowsFrom(start, end, from, start / BYTES_PER_ROW, end / BYTES_PER_ROW);
      var rest := RowsFrom(start, end, from + 1, start / BYTES_PER_ROW, end / BYTES_PER_ROW);
      assert rows == [RowOf(start, end, from, start / BYTES_PER_ROW)] + rest;
      assert rows[1..] == rest;
      WidthFrom(start, end, from + 1);
      if from < end / BYTES_PER_ROW {
        assert start < (from + 1) * BYTES_PER_ROW;
      }
    }
  }

  /** The row spans tile the annotation: they cover `end - start + 1` bytes
      in total, and a byte lies in one of them exactly when it lies in
      [start, end]. */
  lemma RowsTileAnnotation(start: nat, end: nat, offset: nat)
    requires start <= end
    ensures Width(AllRows(start, end)) == end - start + 1
    ensures var rows := AllRows(start, end);
      (exists i :: 0 <= i < |rows| && InSpan(rows[i], offset)) <==> start <= offset <= end
  {
    WidthFrom(start, end, start / BYTES_PER_ROW);
    var rows := AllRows(start, end);
    if start <= offset <= end {
      assert HasRow(rows, offset / BYTES_PER_ROW);
      var i :| 0 <= i < |rows| && rows[i].row == offset / BYTES_PER_ROW;
      assert InSpan(rows[i], offset);
    }
    if exists i :: 0 <= i < |rows| && InSpan(rows[i], offset) {
      var i :| 0 <= i < |rows| && InSpan(rows[i], offset);
      var row := rows[i].row;
      assert row * BYTES_PER_ROW + rows[i].startCol == Max(start, row * BYTES_PER_ROW);
    }
  }

  /** True when the byte at `offset` lies in the span. */
  predicate InSpan(s: RowSpan, offset: int) {
    offset / BYTES_PER_ROW == s.row && s.startCol <= offset % BYTES_PER_ROW <= s.endCol
  }

  /** Bytes 10 to 20 take columns 10 to 15 of row 0 and columns 0 to 4 of row 1. */
  lemma TenToTwentyExample()
    ensures AllRows(10, 20) == [RowSpan(0, 10, 15, First, true), RowSpan(1, 0, 4, Last, false)]
  {
    var rest := RowsFrom(10, 20, 1, 0, 1);
    assert RowsFrom(10, 20, 2, 0, 1) == [];
    assert rest == [RowOf(10, 20, 1, 0)];
  }

  // ---------------------------------------------------------------------
  // Pixel boxes

  /** A rectangle in client coordinates, right and bottom edges exclusive. */
  datatype Box = Box(left: int, top: int, right: int, bottom: int)

  /** The top of a row's text band: one row below the header, counted from
      the scroll position. */
  function RowY(row: int, scroll: int): int {
    (row - scroll) * ROW_HEIGHT + ROW_HEIGHT
  }

  /** The outline box of a row span in the hex pane. */
  function HexBox(s: RowSpan, scroll: int): (b: Box)
    ensures b.left == HEX_MARGIN + s.startCol * HEX_BYTE_SPACING - ANNOTATION_MARGIN
    ensures b.right == HEX_MARGIN + s.endCol * HEX_BYTE_SPACING + CHAR_WIDTH * 2 - 9 + ANNOTATION_MARGIN
  {
    var y := RowY(s.row, scroll);
    Box(HEX_MARGIN + s.startCol * HEX_BYTE_SPACING - ANNOTATION_MARGIN, y,
        HEX_MARGIN + s.endCol * HEX_BYTE_SPACING + CHAR_WIDTH * 2 - 9 + ANNOTATION_MARGIN, y + 16)
  }

  /** The outline box of a row span in the ASCII pane. */
  function AsciiBox(s: RowSpan, scroll: int): (b: Box)
    ensures b.left == ASCII_MARGIN + s.startCol * CHAR_WIDTH - ANNOTATION_MARGIN
    ensures b.right == ASCII_MARGIN + (s.endCol + 1) * CHAR_WIDTH + ANNOTATION_MARGIN - 5
  {
    var y := RowY(s.row, scroll);
    Box(ASCII_MARGIN + s.startCol * CHAR_WIDTH - ANNOTATION_MARGIN, y,
        ASCII_MARGIN + (s.endCol + 1) * CHAR_WIDTH + ANNOTATION_MARGIN - 5, y + 16)
  }

  /** For a span with columns in order, both boxes are non-empty, the hex
      box ends left of where any ASCII box can start, and boxes of rows on
      the page lie below the header, one row band apart. */
  lemma BoxesAreOrdered(s: RowSpan, scroll: int)
    requires 0 <= s.startCol <= s.endCol < BYTES_PER_ROW
    ensures HexBox(s, scroll).left < HexBox(s, scroll).right
    ensures AsciiBox(s, scroll).left < AsciiBox(s, scroll).right
    ensures HexBox(s, scroll).right < ASCII_MARGIN - ANNOTATION_MARGIN <= AsciiBox(s, scroll).left
    ensures HexBox(s, scroll).top == AsciiBox(s, scroll).top
    ensures s.row >= scroll ==> HexBox(s, scroll).top >= ROW_HEIGHT
    ensures HexBox(s.(row := s.row + 1), scroll).top == HexBox(s, scroll).top + ROW_HEIGHT
  {
  }

  // ---------------------------------------------------------------------
  // ASCII-pane text

  /** The value drawn on the annotation's first row from its start column:
      as many characters as columns remain in the row. */
  function FirstRowText(value: Text, col: int): (r: Text)
    requires 0 <= col < BYTES_PER_ROW
    ensures |r| == Min(|value|, BYTES_PER_ROW - col)
    ensures r == value[..|r|]
  {
    value[..Min(|value|, BYTES_PER_ROW - col)]
  }

  /** The characters of the value assigned to the annotation's first
      `bytesBefore` bytes: that many times the whole characters per byte,
      capped at the value's length. */
  function Consumed(valueLength: nat, annoLength: int, bytesBefore: nat): (c: nat)
    requires annoLength >= 1
    ensures c <= valueLength
  {
    Min(valueLength, bytesBefore * (valueLength / annoLength))
  }

  /** The value drawn at column `col` of a continuation row, `bytesBefore`
      bytes into the annotation: what the earlier bytes' share leaves, cut
      at the row's end; nothing once the share covers the whole value. */
  function ContinuationText(value: Text, annoLength: int, bytesBefore: nat, col: int): (r: Text)
    requires annoLength >= 1 && 0 <= col < BYTES_PER_ROW
    ensures var c := Consumed(|value|, annoLength, bytesBefore);
      |r| == Min(|value| - c, BYTES_PER_ROW - col)
    ensures var c := Consumed(|value|, annoLength, bytesBefore);
      c + |r| <= |value| && r == value[c..c + |r|]
    ensures |r| == 0 <==> Consumed(|value|, annoLength, bytesBefore) == |value|
  {
    var consumed := Consumed(|value|, annoLength, bytesBefore);
    if consumed < |value| then
      var remaining := value[consumed..];
      remaining[..Min(|remaining|, BYTES_PER_ROW - col)]
    else []
  }

  /** A value with k characters per byte resumes exactly k characters per
      earlier byte into the text, e.g. the hex rendering (three per byte)
      resumes at the hex of the row's first byte. */
  lemma ContinuationAlignsWithBytes(value: Text, annoLength: int, bytesBefore: nat, k: nat)
    requires annoLength >= 1 && |value| == k * annoLength
    ensures Consumed(|value|, annoLength, bytesBefore) == Min(|value|, k * bytesBefore)
  {
    ExactQuotient(k, annoLength);
  }

  lemma {:induction false} ExactQuotient(k: nat, n: int)
    requires n >= 1
    ensures k * n / n == k
  {
    var q := k * n / n;
    var d := k - q;
    assert d * n == k * n % n by {
      assert k * n == q * n + k * n % n;
    }
  }

  /** A value with fewer characters than the annotation has bytes gets zero
      characters per byte, so every continuation row starts the value again
      from its first character. */
  lemma ShortValueRestarts(value: Text, annoLength: int, bytesBefore: nat)
    requires annoLength >= 1 && |value| < annoLength
    ensures ContinuationText(value, annoLength, bytesBefore, 0) == FirstRowText(value, 0)
  {
    assert |value| / annoLength == 0;
    assert Consumed(|value|, annoLength, bytesBefore) == 0;
  }

  /** The ASCII pane over the first `rows` rows of an annotation starting at
      column `col`: the first-row text, then the continuation text at column
      0 of each following row. */
  function PaneText(value: Text, annoLength: int, col: int, rows: nat): (r: Text)
    requires annoLength >= 1 && 0 <= col < BYTES_PER_ROW
    ensures rows >= 1 ==> |r| <= rows * BYTES_PER_ROW - col
    ensures rows >= 1 ==> Min(|value|, BYTES_PER_ROW - col) <= |r| && r[..Min(|value|, BYTES_PER_ROW - col)] == FirstRowText(value, col)
  {
    if rows == 0 then []
    else if rows == 1 then FirstRowText(value, col)
    else PaneText(value, annoLength, col, rows - 1)
         + ContinuationText(value, annoLength, (rows - 1) * BYTES_PER_ROW - col, 0)
  }

  /** For a value with one character per byte ("ascii"), the rows' pieces
      join up with no gap and no overlap: n rows show the value's first
      16n - col characters. */
  lemma {:induction false} OneCharPerBytePaneIsExact(value: Text, col: int, rows: nat)
    requires 0 <= col < BYTES_PER_ROW && |value| >= 1 && rows >= 1
    ensures PaneText(value, |value|, col, rows) == value[..Min(|value|, rows * BYTES_PER_ROW - col)]
  {
    if rows > 1 {
      OneCharPerBytePaneIsExact(value, col, rows - 1);
      var before := (rows - 1) * BYTES_PER_ROW - col;
      ContinuationAlignsWithBytes(value, |value|, before, 1);
      var prefix := value[..Min(|value|, before)];
      var piece := ContinuationText(value, |value|, before, 0);
      assert PaneText(value, |value|, col, rows) == prefix + piece;
      var c := Min(|value|, before);
      assert piece == value[c..c + |piece|];
      assert value[..c] + value[c..c + |piece|] == value[..c + |piece|];
    }
  }
}

=== FILE: span_format.dfy ===
/** The span formatter behind every annotation's displayed value
    (`FormatData`): it clamps a byte span to the buffer and renders it in one
    of the format names "hex", "int", "float", "double", "ascii" or
    "unicode". */
module SpanFormat {
  import opened Bytes
  import opened LittleEndian
  import opened Numerals

  /** Renderings this model does not carry out: fixed-point printing of
      IEEE 754 values and calendar conversion of time stamps. */
  datatype ForeignKind =
    | FixedFloat32(precision: nat)
    | FixedFloat64(precision: nat)
    | UtcTime32
    | UtcTime64
    | OleDate

  /** A rendered value: text the model computes, a foreign rendering of the
      given raw bytes (always non-empty text in the program), or a case whose
      behaviour the C++ language leaves undefined. */
  datatype Value =
    | Shown(text: Text)
    | Foreign(kind: ForeignKind, raw: seq<byte>)
    | Undefined(raw: seq<byte>)

  const INSUFFICIENT_BYTES: Text := "Insufficient bytes"

  /** The bytes `FormatData` reads: `length` is replaced by `size - offset`
      when `offset + length` exceeds the buffer. The comparison is done
      after conversion to `size_t`, so a negative sum also counts as
      exceeding it. A length that stays negative reads nothing. */
  function Span(data: seq<byte>, offset: int, length: int): (s: seq<byte>)
    requires 0 <= offset <= |data|
    ensures |s| <= |data| - offset
    ensures s == data[offset..offset + |s|]
    ensures 0 <= length && offset + length <= |data| ==> |s| == length
    ensures offset + length > |data| || offset + length < 0 ==> |s| == |data| - offset
    ensures 0 <= offset + length <= |data| && length < 0 ==> |s| == 0
  {
    var clamped := if offset + length < 0 || offset + length > |data| then |data| - offset else length;
    var count := if clamped < 0 then 0 else clamped;
    data[offset..offset + count]
  }

  /** Two uppercase hex digits and a space per byte, in offset order. */
  function HexDump(s: seq<byte>): (r: Text)
    ensures |r| == 3 * |s|
  {
    if |s| == 0 then [] else HexPair(s[0]) + " " + HexDump(s[1..])
  }

  /** Characters 3i, 3i+1 and 3i+2 of a hex dump render byte i. */
  lemma {:induction false} HexDumpAt(s: seq<byte>, i: nat)
    requires i < |s|
    ensures HexDump(s)[3 * i..3 * i + 3] == HexPair(s[i]) + " "
  {
    var r := HexDump(s);
    if i > 0 {
      HexDumpAt(s[1..], i - 1);
      assert r[3..] == HexDump(s[1..]);
      assert r[3 * i..3 * i + 3] == r[3..][3 * (i - 1)..3 * (i - 1) + 3];
    }
  }

  /** Reads a hex dump back into bytes; None when `t` is not one. */
  function ParseHexDump(t: Text): (r: Option<seq<byte>>)
  {
    if |t| == 0 then Some([])
    else if |t| < 3 || t[2] != ' ' || DigitValue(t[0]) < 0 || DigitValue(t[1]) < 0 then None
    else
      match ParseHexDump(t[3..])
      case None => None
      case Some(rest) => Some([DigitValue(t[0]) * 16 + DigitValue(t[1])] + rest)
  }

  lemma {:induction false} HexDumpRoundTrip(s: seq<byte>)
    ensures ParseHexDump(HexDump(s)) == Some(s)
  {
    if |s| > 0 {
      var t := HexDump(s);
      var p := HexPair(s[0]);
      assert t[0] == p[0] && t[1] == p[1] && t[2] == ' ';
      assert DigitValue(t[0]) * 16 + DigitValue(t[1]) == s[0];
      assert t[3..] == HexDump(s[1..]);
      HexDumpRoundTrip(s[1..]);
      assert [s[0]] + s[1..] == s;
    }
  }

  /** The "int" rendering: widths 1, 2, 4 and 8 are signed little-endian
      integers of that width; any other width is accumulated little-endian
      into an `int` by shifts of 8 * i bits, which is defined only while the
      shift stays below 32 (widths 0 and 3 here). */
  function IntText(s: seq<byte>): (r: Value)
  {
    if |s| == 1 || |s| == 2 || |s| == 4 || |s| == 8 then Shown(DecimalText(Signed(s)))
    else if |s| <= 4 then Shown(DecimalText(Unsigned(s)))
    else Undefined(s)
  }

  /** One character per byte under the printable-or-dot rule. */
  function AsciiText(s: seq<byte>): (r: Text)
    ensures |r| == |s|
    ensures forall i :: 0 <= i < |s| ==> r[i] == DisplayChar(s[i])
  {
    seq(|s|, i requires 0 <= i < |s| => DisplayChar(s[i]))
  }

  /** One character per even-indexed byte under the printable-or-dot rule. */
  function WideText(s: seq<byte>): (r: Text)
    ensures |r| == (|s| + 1) / 2
    ensures forall i :: 0 <= i < |r| ==> r[i] == DisplayChar(s[2 * i])
  {
    seq((|s| + 1) / 2, i requires 0 <= i < (|s| + 1) / 2 => DisplayChar(s[2 * i]))
  }

  /** `FormatData(data, offset, length, format)`. */
  function FormatData(data: seq<byte>, offset: int, length: int, format: Text): (r: Value)
    requires 0 <= offset <= |data|
    ensures format !in {"hex", "int", "float", "double", "ascii", "unicode"} ==> r == Shown("")
    ensures r.Undefined? ==> format == "int"
    ensures r.Foreign? ==> offset + |r.raw| <= |data| && r.raw == data[offset..offset + |r.raw|]
    ensures r.Foreign? ==> (format == "float" && |r.raw| == 4) || (format == "double" && |r.raw| == 8)
  {
    var s := Span(data, offset, length);
    if format == "hex" then Shown(HexDump(s))
    else if format == "int" then IntText(s)
    else if format == "float" then
      if |s| >= 4 then Foreign(FixedFloat32(6), s[..4]) else Shown(INSUFFICIENT_BYTES)
    else if format == "double" then
      if |s| >= 8 then Foreign(FixedFloat64(6), s[..8]) else Shown(INSUFFICIENT_BYTES)
    else if format == "ascii" then Shown(AsciiText(s))
    else if format == "unicode" then Shown(WideText(s))
    else Shown("")
  }

  /** The format names `FormatData` recognises. */
  const SpanFormats: set<Text> := {"hex", "int", "float", "double", "ascii", "unicode"}

  /** "hex" emits three characters per byte of the clamped span, and the
      text reads back as exactly those bytes. */
  lemma HexFormatReadsBack(data: seq<byte>, offset: int, length: int)
    requires 0 <= offset <= |data|
    ensures var s := Span(data, offset, length);
      && FormatData(data, offset, length, "hex").Shown?
      && |FormatData(data, offset, length, "hex").text| == 3 * |s|
      && ParseHexDump(FormatData(data, offset, length, "hex").text) == Some(data[offset..offset + |s|])
  {
    HexDumpRoundTrip(Span(data, offset, length));
  }

  lemma HexFormatExample()
    ensures FormatData([0x0A, 0xFF], 0, 2, "hex") == Shown("0A FF ")
  {
    var s := Span([0x0A, 0xFF], 0, 2);
    assert s == [0x0A, 0xFF];
    assert HexDump(s[1..][1..]) == [];
  }

  /** "int" over 1, 2, 4 or 8 bytes prints the signed little-endian value of
      that width, which reads back from the text; 0 or 3 bytes print the
      unsigned accumulation; other widths are undefined behaviour. */
  lemma IntFormatReadsBack(data: seq<byte>, offset: int, length: int)
    requires 0 <= offset <= |data|
    ensures var s := Span(data, offset, length);
      var r := FormatData(data, offset, length, "int");
      && (|s| in {1, 2, 4, 8} ==>
            r.Shown? && ParseDecimal(r.text) == Some(Signed(s))
            && 0 - Pow256(|s|) <= 2 * Signed(s) < Pow256(|s|))
      && (|s| in {0, 3} ==> r.Shown? && ParseDecimal(r.text) == Some(Unsigned(s)))
      && (|s| !in {0, 1, 2, 3, 4, 8} <==> r.Undefined?)
  {
    var s := Span(data, offset, length);
    if |s| in {1, 2, 4, 8} {
      DecimalRoundTrip(Signed(s));
    } else if |s| in {0, 3} {
      DecimalRoundTrip(Unsigned(s));
    }
  }

  lemma IntFormatMinusOne()
    ensures FormatData([0xFF, 0xFF, 0xFF, 0xFF], 0, 4, "int") == Shown("-1")
  {
    var s := Span([0xFF, 0xFF, 0xFF, 0xFF], 0, 4);
    assert s == [0xFF, 0xFF, 0xFF, 0xFF];
    assert Unsigned(s) == 0xFFFF_FFFF;
    assert Signed(s) == -1;
  }

  /** "ascii" shows one character per byte: printable bytes as themselves,
      all others as '.'. A fully printable span is shown verbatim. */
  lemma AsciiFormatPerByte(data: seq<byte>, offset: int, length: int)
    requires 0 <= offset <= |data|
    ensures var s := Span(data, offset, length);
      var r := FormatData(data, offset, length, "ascii");
      && r.Shown? && |r.text| == |s|
      && (forall i :: 0 <= i < |s| ==> (Printable(s[i]) ==> r.text[i] as int == s[i]) && (!Printable(s[i]) ==> r.text[i] == '.'))
      && ((forall i :: 0 <= i < |s| ==> Printable(s[i])) ==> TextBytes(r.text) == s)
  {
  }

  /** "unicode" shows (n + 1) / 2 characters for an n-byte span: the
      "ascii" rendering of the even-indexed bytes. */
  lemma UnicodeFormatIsEvenBytes(data: seq<byte>, offset: int, length: int)
    requires 0 <= offset <= |data|
    ensures var s := Span(data, offset, length);
      var r := FormatData(data, offset, length, "unicode");
      var evens := seq((|s| + 1) / 2, i requires 0 <= i < (|s| + 1) / 2 => s[2 * i]);
      && r.Shown? && |r.text| == (|s| + 1) / 2
      && r.text == AsciiText(evens)
  {
  }

  /** "float" and "double" need 4 and 8 bytes after clamping, otherwise the
      result is "Insufficient bytes"; a name outside the vocabulary yields "". */
  lemma FloatAndFallbackRules(data: seq<byte>, offset: int, length: int, format: Text)
    requires 0 <= offset <= |data|
    ensures var s := Span(data, offset, length);
      var r := FormatData(data, offset, length, format);
      && (format == "float" ==> (r == Shown(INSUFFICIENT_BYTES) <==> |s| < 4))
      && (format == "float" && |s| >= 4 ==> r == Foreign(FixedFloat32(6), data[offset..offset + 4]))
      && (format == "double" ==> (r == Shown(INSUFFICIENT_BYTES) <==> |s| < 8))
      && (format == "double" && |s| >= 8 ==> r == Foreign(FixedFloat64(6), data[offset..offset + 8]))
      && (format !in SpanFormats ==> r == Shown(""))
  {
  }
}
